=== FILE: README.md ===
# traffic.js flight core in Dafny

This project models the in-memory core of traffic.js, a library of aircraft
trajectories. A *flight* is a table of position reports (`Records.Row`: a
millisecond timestamp, the aircraft's `icao24` address, its callsign, a
longitude that may be null, latitude and altitude). A *traffic* is a table of
reports from many aircraft. The model covers:

- time-window filtering of a flight (`before`, `after`, `between`), with
  instants normalised by `make_date` (module `Filters`, module `Time`);
- splitting a flight at every gap wider than a threshold (module
  `Segmentation`);
- resampling a flight onto a list of tick instants by linear interpolation
  between the two reports that bracket each tick (module `Resampling`);
- the property bag built by `rollup`, the line-string `feature` and
  `intersects` (module `Features`);
- iterating a traffic as per-aircraft flight segments (module `Traffic`).

Rows are immutable values and every operation is a pure function over
`seq<Row>`. Filters keep the original report order, as the table library's
`filter` does. Numbers are modelled as mathematical reals and integers.

Three behaviours of the code are worth stating up front:

- A tick equal to the last report has no following report and yields no row
  (`Resampling.ResampleAtSample`). So a two-report flight resampled at its two
  instants gives one row: on increasing reports and ascending ticks the output
  instants are the ticks before the last report (`Resampling.ReferenceInstants`
  with `Resampling.ResampleMatchesReference`).
- A bracketing pair that shares one timestamp divides by zero at
  src/flight.ts:151. The model reports this as `Failure(ZeroSpan(tick))`.
- A rollup entry of an unknown shape throws at src/flight.ts:64 (see
  "## Findings").

## Model

| member | source | states |
|---|---|---|
| Time.MakeDate | src/time.ts:5-15 | the instant a timelike denotes; its properties are stated by the three lemmas below |
| Time.MakeDateFollowsParser | src/time.ts:6-10 | for any parser and clock, a date is returned unchanged and text the UTC pattern accepts yields the parsed instant |
| Time.MakeDateIdempotent | src/time.ts:5-15 | normalising an instant returns it unchanged, so normalising twice equals normalising once, whatever the clock reads the second time |
| Time.MakeDateUsesClockOnlyOnFailure | src/time.ts:11-14 | the wall clock affects the result only for text that the UTC pattern `%Y-%m-%d %H:%M:%S` rejects, and then the result is the clock's instant |
| Filters.Before | src/flight.ts:120-125 | keeps exactly the reports earlier than the instant (at or before it when not strict), each with its original multiplicity |
| Filters.After | src/flight.ts:126-131 | keeps exactly the reports later than the instant (at or after it when not strict), each with its original multiplicity |
| Filters.Between | src/flight.ts:132 | keeps exactly the reports in the half-open window [t1, t2), and equals a single filter on that window |
| Filters.BeforeAt | src/flight.ts:120-125 | `before` on a date or text argument: keeps exactly the reports earlier than the instant `make_date` gives; unparseable text compares with the clock's instant |
| Filters.AfterAt | src/flight.ts:126-131 | `after` on a date or text argument: keeps exactly the reports later than the instant `make_date` gives; unparseable text compares with the clock's instant |
| Filters.BetweenAt | src/flight.ts:132 | `between` on date or text arguments: keeps exactly the reports in the half-open window between the two normalised instants |
| Filters.BeforeAfterPartition | src/flight.ts:120-131 | `before(t, strict)` and `after(t, !strict)` split the flight into two disjoint parts whose multisets add up to the flight |
| Filters.SortedFlightCutsAt | src/flight.ts:120-131 | on a time-sorted flight, `before(t, strict)` followed by `after(t, !strict)` is the flight itself, in order |
| Records.SortByTime | src/flight.ts:75 | ordering by timestamp yields a time-sorted permutation of the reports |
| Records.SortedPermutationsAgreeOnTime | src/flight.ts:75-77 | any two time-sorted orderings of the same reports have the same timestamp at every position, so the gaps do not depend on how ties are ordered |
| Segmentation.GapsIndependentOfSort | src/flight.ts:75-77 | the sequence of gaps is the same for every time-sorted ordering of the flight |
| Segmentation.FirstWidestGap | src/flight.ts:78-83 | the chosen position holds the widest gap, and no earlier position holds one as wide |
| Segmentation.Cut | src/flight.ts:74-84 | the flight is cut iff its widest gap is positive and wider than the threshold, and then at the later report of the first widest gap |
| Segmentation.CutIsInterior | src/flight.ts:82-86 | the cut instant is a report's timestamp, some report lies before it, and every earlier report is more than the threshold before it |
| Segmentation.ShrinksOnBothSides | src/flight.ts:84-86 | both halves of a cut are strictly smaller than the flight, so the recursion ends |
| Segmentation.Split | src/flight.ts:74-96 | yields at least one segment; the segments together hold exactly the flight's reports; a non-empty flight yields only non-empty segments |
| Segmentation.SplitKeepsWhole | src/flight.ts:84-95 | the flight is yielded whole iff it has no positive gap wider than the threshold; a flight of at most one report is always yielded whole |
| Segmentation.SplitSegmentsAreFinal | src/flight.ts:84-95 | every segment has no positive gap wider than the threshold, so splitting it again yields it unchanged |
| Segmentation.SplitGapBound | src/flight.ts:74-95 | for a non-negative threshold, every segment's gaps are at most the threshold |
| Segmentation.SplitSeparated | src/flight.ts:84-92 | every report of an earlier segment is more than the threshold before every report of a later segment |
| Segmentation.SplitSegmentsAreWindows | src/flight.ts:85-92 | every segment is exactly the flight's reports within some half-open time window |
| Resampling.InterpolatedTimestampIsTick | src/flight.ts:150-155 | an interpolated row carries the tick as its timestamp |
| Resampling.FractionInUnitInterval | src/flight.ts:151 | a tick between the two bracketing reports at or after the earlier report and before the later one gives an interpolation fraction in [0, 1) |
| Resampling.InterpolateAtEarlierSample | src/flight.ts:150-155 | interpolating at the earlier report's instant gives that report's numeric values |
| Resampling.Interpolate | src/flight.ts:150-156 | interpolating at the later report's instant gives that report; at a tick between the two reports, latitude, altitude and (when both have one) longitude lie between the two reports' values |
| Resampling.Advance | src/flight.ts:162 | the pointer only moves forward, stays on a report, and stops at a position where the current report is not before the tick, or the next report is missing or later than the tick |
| Resampling.AdvancePassesOnlyWhileLooping | src/flight.ts:162 | every position the pointer passes satisfied the loop condition, so it stops at the first position where the condition fails |
| Resampling.AdvancePointer | src/flight.ts:162 | the imperative pointer loop computes the same position as the functional `Advance` |
| Resampling.Sweep | src/flight.ts:158-171 | the tick loop yields at most one row per tick, in tick order: the rows' instants are the ticks with some left out |
| Resampling.Resample | src/flight.ts:138-175 | a null rate returns the flight; a single report yields no rows; at most one row per tick, in tick order (the instants are a subsequence of the ticks), whether or not the reports are sorted; an empty flight fails unless there are no ticks |
| Resampling.ResampleSweep | src/flight.ts:158-171 | the imperative loop over the ticks computes the same result as `Resample` |
| Resampling.SweepWithoutSuccessor | src/flight.ts:163 | a flight of a single report produces no row for any tick, since no report follows it |
| Resampling.AdvanceFindsBracket | src/flight.ts:159-162 | on increasing reports and ascending ticks, the pointer lands on the last report at or before the tick, or on the first report when the tick precedes the flight |
| Resampling.ResampleMatchesReference | src/flight.ts:138-175 | on increasing reports and ascending ticks, resampling equals a per-tick definition: interpolate between the report bracket of each tick |
| Resampling.ReferenceBracketed | src/flight.ts:160-169 | when no tick precedes the flight, every output row is the interpolation at its tick between two consecutive reports that surround the tick |
| Resampling.ReferenceInstants | src/flight.ts:160-171 | the output instants are exactly the ticks before the last report, in order |
| Resampling.ResampleAtSample | src/flight.ts:160-171 | on increasing reports, resampling at the last report's instant produces nothing, while resampling at an earlier report's instant gives one row with that report's timestamp, latitude and altitude |
| Features.ResolveReadsOnlyItsEntry | src/flight.ts:50-69 | an entry's value depends only on what it reads: the flight member it names, or the aggregation of its descriptor when that has a `func`; no other part of the flight's interface changes it |
| Features.Rollup | src/flight.ts:47-71 | one property per spec entry, with the same keys in the same order; function entries give their value on the flight; unrecognised entries give undefined |
| Features.RollupAsWritten | src/flight.ts:47-71 | as written, a successful rollup has one property per entry; a failure names the key of the first entry of unrecognised non-nullish shape |
| Features.RollupAsWrittenAgrees | src/flight.ts:64-69 | the rollup as written succeeds iff no entry has an unrecognised non-nullish shape, and then it equals `Rollup` |
| Features.RollupOfNumberThrows | src/flight.ts:64 | a spec with one numeric entry throws as written, where the intended result is one undefined property |
| Features.Coordinates | src/flight.ts:39-41 | the pairs are the (longitude, latitude) of exactly the reports with a longitude, in report order |
| Features.Feature | src/flight.ts:38-45 | no feature iff no report has a longitude; otherwise a line string through those reports whose properties are the spec's rollup, one per spec key |
| Features.FeatureAsWritten | src/flight.ts:38-45 | as written, `feature` throws exactly when some report has a longitude and the spec has an entry of unrecognised shape; otherwise it equals `Feature` |
| Features.Intersects | src/flight.ts:177-184 | false for a flight without positions; otherwise true iff the polygon contains or crosses the flight's line string |
| Traffic.Aircraft | src/traffic.ts:15 | the aircraft addresses are distinct, and exactly those that appear in the traffic |
| Traffic.Group | src/traffic.ts:15-17 | an aircraft's group holds exactly its reports, each with its original multiplicity |
| Traffic.Blocks | src/traffic.ts:16-19 | the nested loops yield at least one segment per group, and every report of every segment is a traffic report of a listed aircraft |
| Traffic.BlocksSingleAircraft | src/traffic.ts:15-18 | every yielded segment belongs to a single aircraft |
| Traffic.BlocksCover | src/traffic.ts:15-18 | the yielded segments together hold exactly the reports of the listed aircraft |
| Traffic.BlocksContiguous | src/traffic.ts:16-19 | all segments of one aircraft are yielded consecutively |
| Traffic.BlocksNonEmpty | src/traffic.ts:16-18 | for aircraft present in the traffic every segment is non-empty |
| Traffic.BlocksGapBound | src/traffic.ts:14-18 | for a non-negative threshold, every segment's gaps are within the threshold |
| Traffic.AllAircraftCovered | src/traffic.ts:14-20 | the segments of all aircraft of the traffic together hold exactly its reports |
| Traffic.Iterate | src/traffic.ts:14-20 | every report is yielded exactly once; segments are non-empty, single-aircraft and grouped by aircraft; at least one segment per aircraft; for a non-negative threshold no segment has a gap wider than it; one aircraft's segments come in time order, more than the threshold apart |
| Traffic.BlocksSeparated | src/traffic.ts:16-19 | for distinct aircraft, each aircraft's segments are in time order and more than the threshold apart, as `split` of its group leaves them |
| Traffic.IterateConcatenatesSplits | src/traffic.ts:14-20 | the segments are, aircraft after aircraft, exactly `split` of that aircraft's reports with the threshold passed unchanged |
| Traffic.IterateHoldsSplitOfEachAircraft | src/traffic.ts:16-19 | each aircraft's `split` appears unchanged as one run of consecutive segments |
| Traffic.Flights | src/traffic.ts:22-24 | iterating a traffic directly uses the 600-second threshold: every report exactly once, non-empty single-aircraft segments grouped by aircraft, at least one per aircraft, no gap over 600 seconds inside a segment, and one aircraft's segments more than 600 seconds apart |

## Left out

- Reading and writing tables (src/data.ts, src/core.ts) and the constructor's timestamp parsing: rows enter the model with integer millisecond timestamps.
- Time zones and the date library's parser: `Time.MakeDate` takes the UTC parser and the clock as parameters.
- `before`/`after` call `make_date` once per report, so the clock is read many times. The model normalises the instant once (`Filters.BeforeAt`, `Filters.AfterAt`, `Filters.BetweenAt`) with one clock reading `now`. The results differ only for unparseable text while the clock advances.
- Tick generation (`d3.timeSecond.every(1)` over the flight's extent): ticks are an input list; `None` stands for a null rate.
- `Resampling.Resample`: an empty flight with ticks is `Failure(NoSamples)` where the JavaScript code fails on `objects[0]`; equal bracketing timestamps are `Failure(ZeroSpan)` where the JavaScript code yields NaN fields and continues.
- Interpolation of text fields by the interpolation library (numbers embedded in strings, colours): text fields are taken from the later report; only timestamp, longitude, latitude and altitude are interpolated.
- A null longitude in the earlier report counts as 0 (JavaScript's `+null`), and a null in the later report gives null. Other nulls and extra columns are not modelled.
- A missing longitude is JavaScript `null`. An `undefined` longitude is not modelled: `feature` keeps it (src/flight.ts:40 drops only `null`), and interpolation turns it into NaN rather than 0.
- Floating-point rounding: arithmetic is exact over reals.
- The aggregations `min`, `max`, `mean`, `median`, `stdev` and the getters `start`, `stop`, `duration`, `callsign`, `icao24` (src/flight.ts:98-118): they are calls into the table library. Rollup receives name lookups and aggregations as parameters.
- `filter(expression)` (src/flight.ts:134-136): it evaluates an expression string of the table library.
- Features.Feature: builds its properties with the corrected `Rollup`, so it never throws; the JavaScript `feature` throws wherever `rollup` does, as `Features.FeatureAsWritten` states.
- Geometry: `contains` and `crosses` are uninterpreted parameters. The geometry library's own requirement that a line string has at least two positions is not modelled.
- Generators are modelled as the full sequence they yield; laziness is not modelled.
- Traffic grouping lists aircraft in order of first appearance, which is an assumption about the table library's group order.
- Coordinate projection and simplification do not exist in this version of traffic.js.

## Findings

| source | as written | input that shows it | evidently intended | confidence | as-written member | corrected member |
|---|---|---|---|---|---|---|
| src/flight.ts:64 | `value?.toObject()?.func` calls `toObject` on every non-nullish entry that is neither a string nor a function, so an entry without that method throws a TypeError, also through `feature(spec)` at line 43 | `rollup({ n: 5 })` | the entry falls through to line 69 and resolves to undefined | medium, not executed | Features.RollupAsWritten, Features.RollupOfNumberThrows, Features.FeatureAsWritten | Features.Rollup, Features.RollupAsWrittenAgrees |

=== FILE: features.dfy ===
/** Property bags and line-string features of a flight: rollup, feature and
    intersects (src/flight.ts). Geometry is uninterpreted. */
module Features {
  import opened Wrappers
  import opened Records

  /** A property value; `Undefined` is JavaScript's undefined. */
  datatype Value = Undefined | Number(n: real) | Text(s: string) | Moment(ms: int)

  /** What looking a name up on the flight yields: a method (whose call
      result is taken) or a plain property value. */
  datatype Member = Method(result: Value) | Property(value: Value)

  /** An aggregation descriptor; its `func` is falsy when empty. */
  datatype Descriptor = Descriptor(func: string, column: string)

  /** The shapes a rollup entry can take at run time. `Other` is any value of
      another shape (a number, a boolean, a plain object): it has no
      `toObject` method. */
  datatype Entry =
    | Accessor(name: string)
    | Closure(fn: seq<Row> -> Value)
    | Operator(desc: Descriptor)
    | Nullish
    | Other

  /** Calling a missing method, as `value?.toObject()` does on `Other`. */
  datatype RollupError = NotAFunction(key: string)

  /** The value an entry resolves to. `lookup` stands for property access on
      the flight and `aggregate` for the table aggregation; both are left
      abstract. */
  function Resolve(e: Entry, rows: seq<Row>, lookup: string -> Member,
                   aggregate: (Descriptor, seq<Row>) -> Value): Value
  {
    match e
    case Accessor(name) =>
      (match lookup(name) case Method(v) => v case Property(v) => v)
    case Closure(fn) => fn(rows)
    case Operator(d) => if d.func != "" then aggregate(d, rows) else Undefined
    case Nullish => Undefined
    case Other => Undefined
  }

  /** An entry's value depends only on what it reads: the flight's member of
      that name for a name, the aggregation of that descriptor for an
      operator with a `func`, and nothing else of the flight's interface. */
  lemma ResolveReadsOnlyItsEntry(e: Entry, rows: seq<Row>, l1: string -> Member, l2: string -> Member,
                                 a1: (Descriptor, seq<Row>) -> Value, a2: (Descriptor, seq<Row>) -> Value)
    requires e.Accessor? ==> l1(e.name) == l2(e.name)
    requires e.Operator? && e.desc.func != "" ==> a1(e.desc, rows) == a2(e.desc, rows)
    ensures Resolve(e, rows, l1, a1) == Resolve(e, rows, l2, a2)
  {
  }

  /** `rollup(spec)`: one property per entry of the spec, under the same key
      and in the same order; an entry of no recognised shape resolves to
      undefined. */
  function Rollup(spec: seq<(string, Entry)>, rows: seq<Row>, lookup: string -> Member,
                  aggregate: (Descriptor, seq<Row>) -> Value): (props: seq<(string, Value)>)
    ensures |props| == |spec|
    ensures forall i :: 0 <= i < |spec| ==> props[i].0 == spec[i].0
    ensures forall i :: 0 <= i < |spec| && (spec[i].1.Nullish? || spec[i].1.Other?) ==>
              props[i].1 == Undefined
    ensures forall i :: 0 <= i < |spec| && spec[i].1.Closure? ==> props[i].1 == spec[i].1.fn(rows)
  {
    if |spec| == 0 then []
    else [(spec[0].0, Resolve(spec[0].1, rows, lookup, aggregate))]
           + Rollup(spec[1..], rows, lookup, aggregate)
  }

  /** The entry resolution as the JavaScript code writes it: `value?.toObject()?.func`
      calls `toObject` on any non-nullish value that is neither a string nor a
      function, and throws when the value has no such method. */
  function ResolveAsWritten(key: string, e: Entry, rows: seq<Row>, lookup: string -> Member,
                            aggregate: (Descriptor, seq<Row>) -> Value): Result<Value, RollupError>
  {
    if e.Other? then Failure(NotAFunction(key)) else Success(Resolve(e, rows, lookup, aggregate))
  }

  /** The rollup as written: it throws at the first entry of unrecognised
      non-nullish shape, naming that entry's key. */
  function RollupAsWritten(spec: seq<(string, Entry)>, rows: seq<Row>, lookup: string -> Member,
                           aggregate: (Descriptor, seq<Row>) -> Value): (r: Result<seq<(string, Value)>, RollupError>)
    ensures r.Success? ==> |r.value| == |spec|
    ensures r.Failure? ==> exists i :: 0 <= i < |spec| && spec[i].1.Other? && r.error == NotAFunction(spec[i].0)
                                       && forall j :: 0 <= j < i ==> !spec[j].1.Other?
  {
    if |spec| == 0 then Success([])
    else
      match ResolveAsWritten(spec[0].0, spec[0].1, rows, lookup, aggregate)
      case Failure(e) => Failure(e)
      case Success(v) =>
        match RollupAsWritten(spec[1..], rows, lookup, aggregate)
        case Failure(e) => Failure(e)
        case Success(rest) => Success([(spec[0].0, v)] + rest)
  }

  /** The rollup as written agrees with `Rollup` exactly when the spec has no
      entry of an unrecognised non-nullish shape, and throws otherwise. */
  lemma {:induction false} RollupAsWrittenAgrees(spec: seq<(string, Entry)>, rows: seq<Row>,
                                                 lookup: string -> Member,
                                                 aggregate: (Descriptor, seq<Row>) -> Value)
    ensures RollupAsWritten(spec, rows, lookup, aggregate).Success? <==>
              forall i :: 0 <= i < |spec| ==> !spec[i].1.Other?
    ensures RollupAsWritten(spec, rows, lookup, aggregate).Success? ==>
              RollupAsWritten(spec, rows, lookup, aggregate).value == Rollup(spec, rows, lookup, aggregate)
  {
    if |spec| > 0 {
      RollupAsWrittenAgrees(spec[1..], rows, lookup, aggregate);
      assert forall i :: 1 <= i < |spec| ==> spec[i] == spec[1..][i - 1];
    }
  }

  /** A spec holding one numeric entry: the JavaScript code throws where an
      unrecognised entry should resolve to undefined. */
  lemma RollupOfNumberThrows(rows: seq<Row>, lookup: string -> Member,
                             aggregate: (Descriptor, seq<Row>) -> Value)
    ensures RollupAsWritten([("n", Other)], rows, lookup, aggregate) == Failure(NotAFunction("n"))
    ensures Rollup([("n", Other)], rows, lookup, aggregate) == [("n", Undefined)]
  {
  }

  /** Whether a report has a position (a non-null longitude). */
  predicate Located(x: Row)
  {
    x.longitude.Some?
  }

  /** The (longitude, latitude) pairs of the reports that have a longitude,
      in report order. */
  function Coordinates(rows: seq<Row>): (coords: seq<(real, real)>)
    ensures var located := Filter(rows, Located);
            && |coords| == |located|
            && forall k :: 0 <= k < |coords| ==>
                 located[k].longitude.Some? && coords[k] == (located[k].longitude.value, located[k].latitude)
  {
    if |rows| == 0 then []
    else
      (if rows[0].longitude.Some? then [(rows[0].longitude.value, rows[0].latitude)] else [])
        + Coordinates(rows[1..])
  }

  /** A line string with a property bag. */
  datatype Geometry = LineString(coords: seq<(real, real)>, properties: seq<(string, Value)>)

  /** `feature(spec)`: the line string through every located report, with the
      rollup of `spec` as properties; absent when no report has a longitude. */
  function Feature(rows: seq<Row>, spec: seq<(string, Entry)>, lookup: string -> Member,
                   aggregate: (Descriptor, seq<Row>) -> Value): (f: Option<Geometry>)
    ensures f.None? <==> forall x :: x in rows ==> x.longitude.None?
    ensures f.Some? ==> f.value.coords == Coordinates(rows)
    ensures f.Some? ==> |f.value.properties| == |spec|
    ensures f.Some? ==> forall i :: 0 <= i < |spec| ==> f.value.properties[i].0 == spec[i].0
    ensures f.Some? ==> f.value.properties == Rollup(spec, rows, lookup, aggregate)
  {
    var coords := Coordinates(rows);
    var located := Filter(rows, Located);
    assert |located| > 0 ==> located[0] in located;
    if |coords| > 0 then Some(LineString(coords, Rollup(spec, rows, lookup, aggregate))) else None
  }

  /** `feature(spec)` as written: the rollup is evaluated only when some
      report has a longitude, and then it throws exactly when the rollup as
      written does; otherwise the result is `Feature`'s. */
  function FeatureAsWritten(rows: seq<Row>, spec: seq<(string, Entry)>, lookup: string -> Member,
                            aggregate: (Descriptor, seq<Row>) -> Value): (r: Result<Option<Geometry>, RollupError>)
    ensures r.Failure? <==> (exists x :: x in rows && x.longitude.Some?) &&
                              exists i :: 0 <= i < |spec| && spec[i].1.Other?
    ensures r.Success? ==> r.value == Feature(rows, spec, lookup, aggregate)
  {
    RollupAsWrittenAgrees(spec, rows, lookup, aggregate);
    var coords := Coordinates(rows);
    var located := Filter(rows, Located);
    assert |located| > 0 ==> located[0] in located;
    if |coords| > 0 then
      match RollupAsWritten(spec, rows, lookup, aggregate)
      case Failure(e) => Failure(e)
      case Success(props) => Success(Some(LineString(coords, props)))
    else Success(None)
  }

  /** `intersects(polygon)`: the flight's feature (with no properties) lies
      within the polygon or crosses it. `contains` and `crosses` are the
      geometry library's predicates. */
  function Intersects<P>(rows: seq<Row>, polygon: P, contains: (P, Geometry) -> bool,
                         crosses: (P, Geometry) -> bool): (b: bool)
    ensures (forall x :: x in rows ==> x.longitude.None?) ==> !b
    ensures (exists x :: x in rows && x.longitude.Some?) ==>
              var line := LineString(Coordinates(rows), []);
              (b <==> contains(polygon, line) || crosses(polygon, line))
  {
    match Feature(rows, [], _ => Property(Undefined), (_, _) => Undefined)
    case None => false
    case Some(line) => contains(polygon, line) || crosses(polygon, line)
  }
}

=== FILE: filters.dfy ===
/** The temporal filters of a flight: before, after and between (src/flight.ts). */
module Filters {
  import opened Wrappers
  import opened Records
  import Time

  /** Whether a report at `ts` is kept by `before(t, strict)`. */
  predicate Precedes(ts: int, t: int, strict: bool)
  {
    if strict then ts < t else ts <= t
  }

  /** Whether a report at `ts` is kept by `after(t, strict)`. */
  predicate Follows(ts: int, t: int, strict: bool)
  {
    if strict then ts > t else ts >= t
  }

  /** The reports strictly before `t` (or at or before it when not strict). */
  function Before(rows: seq<Row>, t: int, strict: bool): (r: seq<Row>)
    ensures forall x {:trigger multiset(r)[x]} :: multiset(r)[x] == if Precedes(x.ts, t, strict) then multiset(rows)[x] else 0
    ensures forall x :: x in r ==> Precedes(x.ts, t, strict)
  {
    Filter(rows, (x: Row) => Precedes(x.ts, t, strict))
  }

  /** The reports strictly after `t` (or at or after it when not strict). */
  function After(rows: seq<Row>, t: int, strict: bool): (r: seq<Row>)
    ensures forall x {:trigger multiset(r)[x]} :: multiset(r)[x] == if Follows(x.ts, t, strict) then multiset(rows)[x] else 0
    ensures forall x :: x in r ==> Follows(x.ts, t, strict)
  {
    Filter(rows, (x: Row) => Follows(x.ts, t, strict))
  }

  /** `between(t1, t2)` is `after(t1)` then `before(t2)` with their default
      strictness: non-strict after, strict before. */
  function Between(rows: seq<Row>, t1: int, t2: int): (r: seq<Row>)
    ensures forall x {:trigger multiset(r)[x]} :: multiset(r)[x] == if t1 <= x.ts < t2 then multiset(rows)[x] else 0
    ensures r == Filter(rows, (x: Row) => t1 <= x.ts < t2)
  {
    FilterFilter(rows, (x: Row) => Follows(x.ts, t1, false), (x: Row) => Precedes(x.ts, t2, true), (x: Row) => t1 <= x.ts < t2);
    Before(After(rows, t1, false), t2, true)
  }

  /** `before(timestamp, strict)` as called: the timelike argument is first
      normalised by `make_date`, so unparseable text compares with the
      clock's instant `now`. */
  function BeforeAt(rows: seq<Row>, x: Time.Timelike, parse: (string, string) -> Option<int>, now: int,
                    strict: bool): (r: seq<Row>)
    ensures forall y {:trigger multiset(r)[y]} :: multiset(r)[y] ==
              if Precedes(y.ts, Time.MakeDate(x, parse, now), strict) then multiset(rows)[y] else 0
    ensures x.Instant? ==> r == Before(rows, x.ms, strict)
    ensures x.Text? && parse(Time.UtcPattern, x.s).None? ==> r == Before(rows, now, strict)
  {
    Before(rows, Time.MakeDate(x, parse, now), strict)
  }

  /** `after(timestamp, strict)` as called, with the argument normalised by
      `make_date`. */
  function AfterAt(rows: seq<Row>, x: Time.Timelike, parse: (string, string) -> Option<int>, now: int,
                   strict: bool): (r: seq<Row>)
    ensures forall y {:trigger multiset(r)[y]} :: multiset(r)[y] ==
              if Follows(y.ts, Time.MakeDate(x, parse, now), strict) then multiset(rows)[y] else 0
    ensures x.Instant? ==> r == After(rows, x.ms, strict)
    ensures x.Text? && parse(Time.UtcPattern, x.s).None? ==> r == After(rows, now, strict)
  {
    After(rows, Time.MakeDate(x, parse, now), strict)
  }

  /** `between(t1, t2)` as called: both bounds normalised by `make_date`, then
      the half-open window between them. */
  function BetweenAt(rows: seq<Row>, t1: Time.Timelike, t2: Time.Timelike,
                     parse: (string, string) -> Option<int>, now: int): (r: seq<Row>)
    ensures var lo, hi := Time.MakeDate(t1, parse, now), Time.MakeDate(t2, parse, now);
            forall y {:trigger multiset(r)[y]} :: multiset(r)[y] == if lo <= y.ts < hi then multiset(rows)[y] else 0
  {
    var lo, hi := Time.MakeDate(t1, parse, now), Time.MakeDate(t2, parse, now);
    assert BeforeAt(AfterAt(rows, t1, parse, now, false), t2, parse, now, true) == Between(rows, lo, hi);
    BeforeAt(AfterAt(rows, t1, parse, now, false), t2, parse, now, true)
  }

  /** With complementary strictness, before and after partition a flight: no
      report is lost, duplicated or in both halves. */
  lemma BeforeAfterPartition(rows: seq<Row>, t: int, strict: bool)
    ensures multiset(Before(rows, t, strict)) + multiset(After(rows, t, !strict)) == multiset(rows)
    ensures |Before(rows, t, strict)| + |After(rows, t, !strict)| == |rows|
    ensures forall x :: !(x in Before(rows, t, strict) && x in After(rows, t, !strict))
  {
    var b, a := Before(rows, t, strict), After(rows, t, !strict);
    assert forall x :: (multiset(b) + multiset(a))[x] == multiset(rows)[x];
    assert multiset(b) + multiset(a) == multiset(rows);
    assert |multiset(b) + multiset(a)| == |multiset(rows)|;
  }

  /** On a time-ordered flight, `before(t, strict)` is a prefix and
      `after(t, !strict)` the matching suffix. */
  lemma {:induction false} SortedFlightCutsAt(rows: seq<Row>, t: int, strict: bool)
    requires SortedByTime(rows)
    ensures Before(rows, t, strict) + After(rows, t, !strict) == rows
  {
    if |rows| > 0 {
      var tail := rows[1..];
      if Precedes(rows[0].ts, t, strict) {
        assert SortedByTime(tail);
        SortedFlightCutsAt(tail, t, strict);
        HeadKept(rows, t, strict);
      } else {
        LaterAllFollow(rows, t, strict);
      }
    }
  }

  lemma HeadKept(rows: seq<Row>, t: int, strict: bool)
    requires |rows| > 0 && Precedes(rows[0].ts, t, strict)
    ensures Before(rows, t, strict) == [rows[0]] + Before(rows[1..], t, strict)
    ensures After(rows, t, !strict) == After(rows[1..], t, !strict)
  {
  }

  lemma LaterAllFollow(rows: seq<Row>, t: int, strict: bool)
    requires SortedByTime(rows) && |rows| > 0 && !Precedes(rows[0].ts, t, strict)
    ensures Before(rows, t, strict) == []
    ensures After(rows, t, !strict) == rows
  {
    FilterKeepsNone(rows, (x: Row) => Precedes(x.ts, t, strict));
    FilterKeepsAll(rows, (x: Row) => Follows(x.ts, t, !strict));
  }
}

=== FILE: records.dfy ===
/** Position reports and the sequence operations every other module builds on. */
module Records {
  import opened Wrappers

  /** One position report. `ts` is the report's instant in milliseconds since the
      epoch; a report without a position has a JavaScript `null` longitude,
      modelled as `None`. */
  datatype Row = Row(ts: int, icao24: string, callsign: string,
                     longitude: Option<real>, latitude: real, altitude: real)

  /** The rows of `s` that satisfy `keep`, in their original order, unmodified. */
  function Filter(s: seq<Row>, keep: Row -> bool): (r: seq<Row>)
    ensures |r| <= |s|
    ensures forall x {:trigger multiset(r)[x]} :: multiset(r)[x] == if keep(x) then multiset(s)[x] else 0
    ensures forall x :: x in r <==> x in s && keep(x)
  {
    if |s| == 0 then []
    else
      assert s == [s[0]] + s[1..];
      (if keep(s[0]) then [s[0]] else []) + Filter(s[1..], keep)
  }

  /** A filter that every row passes returns its input. */
  lemma {:induction false} FilterKeepsAll(s: seq<Row>, keep: Row -> bool)
    requires forall x :: x in s ==> keep(x)
    ensures Filter(s, keep) == s
  {
    if |s| > 0 {
      FilterKeepsAll(s[1..], keep);
      assert s == [s[0]] + s[1..];
    }
  }

  /** A filter that no row passes returns nothing. */
  lemma {:induction false} FilterKeepsNone(s: seq<Row>, keep: Row -> bool)
    requires forall x :: x in s ==> !keep(x)
    ensures Filter(s, keep) == []
  {
    if |s| > 0 {
      FilterKeepsNone(s[1..], keep);
    }
  }

  /** A filter that rejects some row is strictly shorter than its input. */
  lemma {:induction false} FilterDrops(s: seq<Row>, keep: Row -> bool, x: Row)
    requires x in s && !keep(x)
    ensures |Filter(s, keep)| < |s|
  {
    if s[0] != x {
      FilterDrops(s[1..], keep, x);
    }
  }

  /** Filters that agree on every row agree. */
  lemma {:induction false} FilterExtensional(s: seq<Row>, p: Row -> bool, q: Row -> bool)
    requires forall x :: p(x) == q(x)
    ensures Filter(s, p) == Filter(s, q)
  {
    if |s| > 0 {
      FilterExtensional(s[1..], p, q);
    }
  }

  /** Filtering distributes over concatenation: it keeps relative order. */
  lemma {:induction false} FilterAppend(a: seq<Row>, b: seq<Row>, keep: Row -> bool)
    ensures Filter(a + b, keep) == Filter(a, keep) + Filter(b, keep)
  {
    if |a| == 0 {
      assert a + b == b;
    } else {
      assert (a + b)[1..] == a[1..] + b;
      FilterAppend(a[1..], b, keep);
    }
  }

  /** Filtering twice is filtering once by the conjunction. */
  lemma {:induction false} FilterFilter(s: seq<Row>, p: Row -> bool, q: Row -> bool, pq: Row -> bool)
    requires forall x :: pq(x) == (p(x) && q(x))
    ensures Filter(Filter(s, p), q) == Filter(s, pq)
  {
    if |s| > 0 {
      var head := if p(s[0]) then [s[0]] else [];
      assert Filter(s, p) == head + Filter(s[1..], p);
      FilterAppend(head, Filter(s[1..], p), q);
      FilterFilter(s[1..], p, q, pq);
      if p(s[0]) {
        assert [s[0]][1..] == [];
        assert Filter(head, q) == (if q(s[0]) then [s[0]] else []) + Filter([], q);
      }
    }
  }

  /** The segments of a segmentation laid end to end. */
  function Concat<T>(segments: seq<seq<T>>): seq<T>
  {
    if |segments| == 0 then [] else segments[0] + Concat(segments[1..])
  }

  lemma {:induction false} ConcatAppend(a: seq<seq<Row>>, b: seq<seq<Row>>)
    ensures Concat(a + b) == Concat(a) + Concat(b)
  {
    if |a| == 0 {
      assert a + b == b;
    } else {
      assert (a + b)[1..] == a[1..] + b;
      ConcatAppend(a[1..], b);
    }
  }

  /** A row of any segment is a row of the concatenation. */
  lemma {:induction false} InConcat(segments: seq<seq<Row>>, i: nat, x: Row)
    requires i < |segments| && x in segments[i]
    ensures x in Concat(segments)
  {
    if i > 0 {
      InConcat(segments[1..], i - 1, x);
    }
  }

  /** Non-decreasing timestamps. */
  predicate SortedByTime(s: seq<Row>)
  {
    forall i, j :: 0 <= i < j < |s| ==> s[i].ts <= s[j].ts
  }

  /** Inserts `x` before the first row of a sorted sequence that is later than it. */
  function Insert(x: Row, s: seq<Row>): (r: seq<Row>)
    requires SortedByTime(s)
    ensures SortedByTime(r)
    ensures multiset(r) == multiset(s) + multiset{x}
    ensures |r| == |s| + 1
    ensures r[0] == x || (|s| > 0 && r[0] == s[0])
  {
    if |s| == 0 then [x]
    else if x.ts <= s[0].ts then [x] + s
    else
      assert s == [s[0]] + s[1..];
      [s[0]] + Insert(x, s[1..])
  }

  /** The rows of `s` ordered by timestamp (a stable insertion sort). */
  function SortByTime(s: seq<Row>): (r: seq<Row>)
    ensures SortedByTime(r)
    ensures multiset(r) == multiset(s)
    ensures |r| == |s|
  {
    if |s| == 0 then []
    else
      assert s == [s[0]] + s[1..];
      Insert(s[0], SortByTime(s[1..]))
  }

  /** Two time-ordered arrangements of the same reports start at the same
      instant. */
  lemma FirstInstantsAgree(a: seq<Row>, b: seq<Row>)
    requires SortedByTime(a) && SortedByTime(b) && multiset(a) == multiset(b) && |a| > 0 && |b| > 0
    ensures a[0].ts == b[0].ts
  {
    assert a[0] in multiset(b);
    assert b[0] in multiset(a);
  }

  /** `s` without its position p. */
  function Without(s: seq<Row>, p: nat): seq<Row>
    requires p < |s|
  {
    s[..p] + s[p + 1..]
  }

  /** Removing one position keeps a sequence time-ordered and shifts the
      positions after it down by one. */
  lemma WithoutSorted(b: seq<Row>, p: nat)
    requires SortedByTime(b) && p < |b|
    ensures |Without(b, p)| == |b| - 1
    ensures forall k :: 0 <= k < p ==> Without(b, p)[k] == b[k]
    ensures forall k :: p <= k < |b| - 1 ==> Without(b, p)[k] == b[k + 1]
    ensures SortedByTime(Without(b, p))
  {
  }

  /** Removing the first report of `a` and a matching report of `b` leaves
      two arrangements of the same reports. */
  lemma WithoutMatching(a: seq<Row>, b: seq<Row>, p: nat)
    requires multiset(a) == multiset(b) && 0 < |a| && p < |b| && b[p] == a[0]
    ensures multiset(a[1..]) == multiset(Without(b, p))
  {
    assert a == [a[0]] + a[1..];
    assert multiset(a) == multiset{a[0]} + multiset(a[1..]);
    assert b == b[..p] + [b[p]] + b[p + 1..];
    assert multiset(b) == multiset(b[..p]) + multiset{b[p]} + multiset(b[p + 1..]);
    calc {
      multiset(a[1..]);
      multiset(a) - multiset{a[0]};
      multiset(b) - multiset{b[p]};
      multiset(b[..p]) + multiset(b[p + 1..]);
      multiset(Without(b, p));
    }
  }

  /** Any two time-ordered arrangements of the same reports agree on the
      timestamp at every position, so whichever order a sort gives reports
      that share a timestamp, the gaps it shows are the same. */
  lemma {:induction false} SortedPermutationsAgreeOnTime(a: seq<Row>, b: seq<Row>)
    requires SortedByTime(a) && SortedByTime(b) && multiset(a) == multiset(b)
    ensures |a| == |b|
    ensures forall k :: 0 <= k < |a| ==> a[k].ts == b[k].ts
  {
    assert |a| == |multiset(a)| == |multiset(b)| == |b|;
    if |a| > 0 {
      FirstInstantsAgree(a, b);
      assert a[0] in multiset(b);
      var p :| 0 <= p < |b| && b[p] == a[0];
      WithoutSorted(b, p);
      WithoutMatching(a, b, p);
      assert SortedByTime(a[1..]);
      SortedPermutationsAgreeOnTime(a[1..], Without(b, p));
      AgreeAcrossRemoval(a, b, p);
    }
  }

  /** If the tail of `a` agrees on time with `b` less its position p, and
      `a` and `b` start at the instant of b[p], then `a` agrees with `b`. */
  lemma AgreeAcrossRemoval(a: seq<Row>, b: seq<Row>, p: nat)
    requires SortedByTime(b) && 0 < |a| == |b| && p < |b|
    requires a[0].ts == b[0].ts == b[p].ts
    requires forall k :: 0 <= k < p ==> Without(b, p)[k] == b[k]
    requires forall k :: p <= k < |b| - 1 ==> Without(b, p)[k] == b[k + 1]
    requires forall k :: 0 <= k < |a| - 1 ==> a[1..][k].ts == Without(b, p)[k].ts
    ensures forall k :: 0 <= k < |a| ==> a[k].ts == b[k].ts
  {
    forall k | 1 <= k < |a|
      ensures a[k].ts == b[k].ts
    {
      assert a[k] == a[1..][k - 1];
      if k <= p {
        assert a[k].ts == b[k - 1].ts;
        assert b[0].ts <= b[k - 1].ts <= b[k].ts <= b[p].ts;
      }
    }
  }
}

=== FILE: resampling.dfy ===
/** Resampling of a flight on a list of ticks with linear interpolation
    (src/flight.ts). */
module Resampling {
  import opened Wrappers
  import opened Records

  /** Why a resampling has no value: the flight has no sample to start the
      sweep from, or the bounding pair of a tick shares one timestamp (the
      JavaScript code divides by zero there and produces non-numeric
      fields). */
  datatype ResampleError = NoSamples | ZeroSpan(tick: int)

  /** Linear interpolation in the form the date library uses. */
  function Lerp(x: real, y: real, f: real): real
  {
    x * (1.0 - f) + y * f
  }

  /** Position of `t` between the instants of `a` and `b`, as a fraction. */
  function Fraction(t: int, a: Row, b: Row): real
    requires a.ts != b.ts
  {
    (t - a.ts) as real / (b.ts - a.ts) as real
  }

  /** A missing number converts to 0 in arithmetic. */
  function OrZero(v: Option<real>): real
  {
    if v.Some? then v.value else 0.0
  }

  /** The report at tick `t` interpolated between `a` and `b`. Numeric fields
      are interpolated; a missing longitude in `b` stays missing; text fields
      come from `b`; the timestamp is the tick itself (see
      InterpolatedTimestampIsTick). */
  function Interpolate(t: int, a: Row, b: Row): (r: Row)
    requires a.ts != b.ts
    ensures t == b.ts ==> r == b
    ensures a.ts <= t <= b.ts ==>
              Within(a.latitude, r.latitude, b.latitude) && Within(a.altitude, r.altitude, b.altitude)
    ensures a.ts <= t <= b.ts && a.longitude.Some? && b.longitude.Some? ==>
              r.longitude.Some? && Within(a.longitude.value, r.longitude.value, b.longitude.value)
  {
    var f := Fraction(t, a, b);
    FractionBounds(t, a, b);
    LerpWithin(a.latitude, b.latitude, f);
    LerpWithin(a.altitude, b.altitude, f);
    LerpWithin(OrZero(a.longitude), OrZero(b.longitude), f);
    Row(t, b.icao24, b.callsign,
        if b.longitude.None? then None else Some(Lerp(OrZero(a.longitude), b.longitude.value, f)),
        Lerp(a.latitude, b.latitude, f),
        Lerp(a.altitude, b.altitude, f))
  }

  /** `v` lies between `x` and `y`, in either order. */
  predicate Within(x: real, v: real, y: real)
  {
    (x <= v <= y) || (y <= v <= x)
  }

  /** A fraction in [0, 1] interpolates between the two end values. */
  lemma LerpWithin(x: real, y: real, f: real)
    ensures 0.0 <= f <= 1.0 ==> Within(x, Lerp(x, y, f), y)
  {
    if 0.0 <= f <= 1.0 {
      var d := y - x;
      assert Lerp(x, y, f) == x + d * f;
      if d >= 0.0 {
        assert d * f >= 0.0 && d * (1.0 - f) >= 0.0;
      } else {
        assert d * f <= 0.0 && d * (1.0 - f) <= 0.0;
      }
    }
  }

  /** A tick within its bounding pair has a fraction in [0, 1], and the later
      sample's instant has fraction 1. */
  lemma FractionBounds(t: int, a: Row, b: Row)
    requires a.ts != b.ts
    ensures a.ts <= t <= b.ts ==> 0.0 <= Fraction(t, a, b) <= 1.0
    ensures t == b.ts ==> Fraction(t, a, b) == 1.0
  {
    SelfRatio((b.ts - a.ts) as real);
    if a.ts <= t < b.ts {
      FractionInUnitInterval(t, a, b);
    }
  }

  /** Interpolating the timestamps themselves lands exactly on the tick, which
      is why the interpolated report carries the tick as its timestamp. */
  lemma InterpolatedTimestampIsTick(t: int, a: Row, b: Row)
    requires a.ts != b.ts
    ensures Lerp(a.ts as real, b.ts as real, Fraction(t, a, b)) == t as real
  {
    var d := (b.ts - a.ts) as real;
    var f := Fraction(t, a, b);
    assert f * d == (t - a.ts) as real;
    calc {
      Lerp(a.ts as real, b.ts as real, f);
      a.ts as real + f * d;
      t as real;
    }
  }

  /** A tick inside its bounding pair has a fraction in [0, 1). */
  lemma FractionInUnitInterval(t: int, a: Row, b: Row)
    requires a.ts <= t < b.ts
    ensures 0.0 <= Fraction(t, a, b) < 1.0
  {
    var d := (b.ts - a.ts) as real;
    var f := Fraction(t, a, b);
    assert f * d == (t - a.ts) as real;
  }

  /** A tick at the earlier sample reproduces its numeric fields (its
      longitude too, when both samples have one or neither has). */
  lemma InterpolateAtEarlierSample(a: Row, b: Row)
    requires a.ts != b.ts
    ensures var r := Interpolate(a.ts, a, b);
            && r.ts == a.ts && r.latitude == a.latitude && r.altitude == a.altitude
            && (a.longitude.Some? == b.longitude.Some? ==> r.longitude == a.longitude)
  {
    assert Fraction(a.ts, a, b) == 0.0;
    if b.longitude.Some? {
      assert Lerp(OrZero(a.longitude), b.longitude.value, 0.0) == OrZero(a.longitude);
    }
  }

  /** A non-zero quantity divided by itself is one. */
  lemma SelfRatio(d: real)
    requires d != 0.0
    ensures d / d == 1.0
  {
  }

  /** The inner loop of the sweep: from pointer `i`, step forward while the
      current sample is before `t` and the next one is at or before `t`. */
  function Advance(rows: seq<Row>, i: nat, t: int): (j: nat)
    requires i < |rows|
    ensures i <= j < |rows|
    ensures !(rows[j].ts < t && j + 1 < |rows| && rows[j + 1].ts <= t)
    ensures rows[i].ts <= t ==> rows[j].ts <= t
    decreases |rows| - i
  {
    if rows[i].ts < t && i + 1 < |rows| && rows[i + 1].ts <= t then Advance(rows, i + 1, t) else i
  }

  /** Every position the pointer passes satisfied the loop condition, so
      `Advance` stops at the first position where the condition fails. */
  lemma {:induction false} AdvancePassesOnlyWhileLooping(rows: seq<Row>, i: nat, t: int)
    requires i < |rows|
    ensures forall m {:trigger rows[m]} :: i <= m < Advance(rows, i, t) ==>
              rows[m].ts < t && m + 1 < |rows| && rows[m + 1].ts <= t
    decreases |rows| - i
  {
    if rows[i].ts < t && i + 1 < |rows| && rows[i + 1].ts <= t {
      AdvancePassesOnlyWhileLooping(rows, i + 1, t);
    }
  }

  /** Prepends the reports produced so far to the outcome of the rest. */
  function Prepend(done: seq<Row>, rest: Result<seq<Row>, ResampleError>): Result<seq<Row>, ResampleError>
  {
    match rest
    case Success(more) => Success(done + more)
    case Failure(e) => Failure(e)
  }

  /** The sweep over the ticks, with the pointer starting at `i`: each tick
      advances the pointer and, when a following sample exists, yields the
      report interpolated on the bounding pair. */
  function Sweep(rows: seq<Row>, ticks: seq<int>, i: nat): (r: Result<seq<Row>, ResampleError>)
    requires i < |rows|
    ensures r.Success? ==> |r.value| <= |ticks|
    ensures r.Success? ==> forall k :: 0 <= k < |r.value| ==> r.value[k].ts in ticks
    ensures r.Success? ==> SubsequenceOf(Instants(r.value), ticks)
    decreases |ticks|
  {
    if |ticks| == 0 then Success([])
    else
      var j := Advance(rows, i, ticks[0]);
      var rest := Sweep(rows, ticks[1..], j);
      if j + 1 < |rows| then
        if rows[j].ts == rows[j + 1].ts then Failure(ZeroSpan(ticks[0]))
        else
          var x := Interpolate(ticks[0], rows[j], rows[j + 1]);
          PrependKeepsSubsequence(x, rest, ticks);
          Prepend([x], rest)
      else
        SkipKeepsSubsequence(rest, ticks);
        rest
  }

  /** A row at the first tick, put before rows at later ticks, keeps the
      instants a subsequence of the ticks. */
  lemma PrependKeepsSubsequence(x: Row, rest: Result<seq<Row>, ResampleError>, ticks: seq<int>)
    requires |ticks| > 0 && x.ts == ticks[0]
    requires rest.Success? ==> SubsequenceOf(Instants(rest.value), ticks[1..])
    ensures Prepend([x], rest).Success? ==> SubsequenceOf(Instants(Prepend([x], rest).value), ticks)
  {
    if rest.Success? {
      InstantsAppend([x], rest.value);
      SubsequenceOfCons(Instants(rest.value), ticks);
    }
  }

  /** Rows at later ticks alone keep their instants a subsequence of all ticks. */
  lemma SkipKeepsSubsequence(rest: Result<seq<Row>, ResampleError>, ticks: seq<int>)
    requires |ticks| > 0
    requires rest.Success? ==> SubsequenceOf(Instants(rest.value), ticks[1..])
    ensures rest.Success? ==> SubsequenceOf(Instants(rest.value), ticks)
  {
    if rest.Success? {
      SubsequenceOfLonger(Instants(rest.value), ticks);
    }
  }

  /** `xs` is `ys` with some elements left out, the rest kept in order. */
  predicate SubsequenceOf(xs: seq<int>, ys: seq<int>)
    decreases |ys|
  {
    |xs| == 0 ||
    (|ys| > 0 && ((xs[0] == ys[0] && SubsequenceOf(xs[1..], ys[1..])) || SubsequenceOf(xs, ys[1..])))
  }

  /** Leaving out the first tick keeps a subsequence of the rest one of the whole. */
  lemma SubsequenceOfLonger(xs: seq<int>, ys: seq<int>)
    requires |ys| > 0 && SubsequenceOf(xs, ys[1..])
    ensures SubsequenceOf(xs, ys)
  {
  }

  /** Keeping the first tick extends a subsequence of the rest. */
  lemma SubsequenceOfCons(xs: seq<int>, ys: seq<int>)
    requires |ys| > 0 && SubsequenceOf(xs, ys[1..])
    ensures SubsequenceOf([ys[0]] + xs, ys)
  {
    assert ([ys[0]] + xs)[1..] == xs;
  }

  /** `resample(rate)`: `None` stands for a null rate, which returns the flight
      itself; otherwise the ticks the rate generates over the flight's span are
      given. */
  function Resample(rows: seq<Row>, rate: Option<seq<int>>): (r: Result<seq<Row>, ResampleError>)
    ensures rate.None? ==> r == Success(rows)
    ensures rate.Some? && |rows| == 1 ==> r == Success([])
    ensures rate.Some? && r.Success? ==> |r.value| <= |rate.value|
    ensures rate.Some? && r.Success? ==> SubsequenceOf(Instants(r.value), rate.value)
    ensures rate.Some? && |rows| == 0 ==> (r.Success? <==> rate.value == [])
  {
    match rate
    case None => Success(rows)
    case Some(ticks) =>
      if |rows| == 0 then (if |ticks| == 0 then Success([]) else Failure(NoSamples))
      else
        if |rows| == 1 then
          SweepWithoutSuccessor(rows, ticks, 0);
          Sweep(rows, ticks, 0)
        else Sweep(rows, ticks, 0)
  }

  /** A one-sample flight has no bounding pair for any tick. */
  lemma {:induction false} SweepWithoutSuccessor(rows: seq<Row>, ticks: seq<int>, i: nat)
    requires i < |rows| && |rows| == 1
    ensures Sweep(rows, ticks, i) == Success([])
    decreases |ticks|
  {
    if |ticks| > 0 {
      SweepWithoutSuccessor(rows, ticks[1..], Advance(rows, i, ticks[0]));
    }
  }

  lemma PrependTwice(a: seq<Row>, b: seq<Row>, r: Result<seq<Row>, ResampleError>)
    ensures Prepend(a, Prepend(b, r)) == Prepend(a + b, r)
  {
    if r.Success? {
      assert a + (b + r.value) == (a + b) + r.value;
    }
  }

  /** One tick of the sweep, taken from the middle of the tick list. */
  lemma SweepStep(rows: seq<Row>, ticks: seq<int>, k: nat, i: nat)
    requires k < |ticks| && i < |rows|
    ensures var j := Advance(rows, i, ticks[k]);
            Sweep(rows, ticks[k..], i) ==
              if j + 1 < |rows| then
                if rows[j].ts == rows[j + 1].ts then Failure(ZeroSpan(ticks[k]))
                else Prepend([Interpolate(ticks[k], rows[j], rows[j + 1])], Sweep(rows, ticks[k + 1..], j))
              else Sweep(rows, ticks[k + 1..], j)
  {
    var ts := ticks[k..];
    assert ts[0] == ticks[k] && ts[1..] == ticks[k + 1..];
    var j := Advance(rows, i, ts[0]);
    var rest := Sweep(rows, ts[1..], j);
    assert Sweep(rows, ts, i) ==
             if j + 1 < |rows| then
               if rows[j].ts == rows[j + 1].ts then Failure(ZeroSpan(ts[0]))
               else Prepend([Interpolate(ts[0], rows[j], rows[j + 1])], rest)
             else rest;
  }

  /** The inner loop of the sweep. */
  method AdvancePointer(rows: seq<Row>, i: nat, t: int) returns (j: nat)
    requires i < |rows|
    ensures i <= j < |rows|
    ensures j == Advance(rows, i, t)
  {
    j := i;
    while rows[j].ts < t && j + 1 < |rows| && rows[j + 1].ts <= t
      invariant i <= j < |rows|
      invariant Advance(rows, i, t) == Advance(rows, j, t)
      decreases |rows| - j
    {
      j := j + 1;
    }
  }

  /** The forward sweep of traffic.js: one pointer that never moves back,
      advanced for each tick in turn. */
  method ResampleSweep(rows: seq<Row>, ticks: seq<int>) returns (result: Result<seq<Row>, ResampleError>)
    ensures result == Resample(rows, Some(ticks))
  {
    if |rows| == 0 {
      return if |ticks| == 0 then Success([]) else Failure(NoSamples);
    }
    var out: seq<Row> := [];
    var i: nat := 0;
    var k := 0;
    assert ticks[0..] == ticks;
    var whole := Sweep(rows, ticks, 0);
    if whole.Success? {
      assert [] + whole.value == whole.value;
    }
    while k < |ticks|
      invariant 0 <= k <= |ticks|
      invariant i < |rows|
      invariant Sweep(rows, ticks, 0) == Prepend(out, Sweep(rows, ticks[k..], i))
    {
      var t := ticks[k];
      SweepStep(rows, ticks, k, i);
      i := AdvancePointer(rows, i, t);
      if i + 1 < |rows| {
        if rows[i].ts == rows[i + 1].ts {
          return Failure(ZeroSpan(t));
        }
        var r := Interpolate(t, rows[i], rows[i + 1]);
        PrependTwice(out, [r], Sweep(rows, ticks[k + 1..], i));
        out := out + [r];
      }
      k := k + 1;
    }
    assert ticks[k..] == [] && out + [] == out;
    return Success(out);
  }

  // ---------------------------------------------------------------------
  // A pointer-free reference for well-formed input: samples in strictly
  // increasing time, ticks in ascending order.

  predicate StrictlyIncreasing(rows: seq<Row>)
  {
    forall i, j :: 0 <= i < j < |rows| ==> rows[i].ts < rows[j].ts
  }

  predicate Ascending(ticks: seq<int>)
  {
    forall i, j :: 0 <= i < j < |ticks| ==> ticks[i] <= ticks[j]
  }

  /** How many samples are at or before `t`. */
  function CountAtOrBefore(rows: seq<Row>, t: int): nat
  {
    if |rows| == 0 then 0 else (if rows[0].ts <= t then 1 else 0) + CountAtOrBefore(rows[1..], t)
  }

  /** On time-ordered samples, those at or before `t` form a prefix. */
  lemma {:induction false} CountIsPrefix(rows: seq<Row>, t: int)
    requires SortedByTime(rows)
    ensures CountAtOrBefore(rows, t) <= |rows|
    ensures forall m :: 0 <= m < |rows| ==> (m < CountAtOrBefore(rows, t) <==> rows[m].ts <= t)
  {
    if |rows| > 0 {
      var tail := rows[1..];
      assert SortedByTime(tail);
      CountIsPrefix(tail, t);
    }
  }

  /** The first sample of the bounding pair for tick `t`: the last sample at
      or before `t`, or the first sample when `t` precedes the flight. */
  function Bracket(rows: seq<Row>, t: int): nat
  {
    var c := CountAtOrBefore(rows, t);
    if c == 0 then 0 else c - 1
  }

  /** The bracket is a valid position whose successor, if any, is after `t`. */
  lemma BracketBounds(rows: seq<Row>, t: int)
    requires StrictlyIncreasing(rows) && |rows| > 0
    ensures Bracket(rows, t) < |rows|
    ensures rows[0].ts <= t ==> rows[Bracket(rows, t)].ts <= t
    ensures Bracket(rows, t) + 1 < |rows| ==> t < rows[Bracket(rows, t) + 1].ts
    ensures Bracket(rows, t) + 1 < |rows| <==> (|rows| >= 2 && t < rows[|rows| - 1].ts)
  {
    CountIsPrefix(rows, t);
  }

  /** Later ticks never have an earlier bracket. */
  lemma BracketMonotone(rows: seq<Row>, t: int, u: int)
    requires StrictlyIncreasing(rows) && t <= u
    ensures Bracket(rows, t) <= Bracket(rows, u)
  {
    CountIsPrefix(rows, t);
    CountIsPrefix(rows, u);
    var m := CountAtOrBefore(rows, u);
    if m < |rows| {
      assert rows[m].ts > u;
    }
  }

  /** A tick at a sample has that sample as its bracket. */
  lemma BracketOfSample(rows: seq<Row>, j: nat)
    requires StrictlyIncreasing(rows) && j < |rows|
    ensures Bracket(rows, rows[j].ts) == j
  {
    CountIsPrefix(rows, rows[j].ts);
    if j + 1 < |rows| {
      assert rows[j].ts < rows[j + 1].ts;
    }
  }

  /** From any position at or before the bracket, the pointer stops exactly
      at the bracket. */
  lemma {:induction false} AdvanceFindsBracket(rows: seq<Row>, i: nat, t: int)
    requires StrictlyIncreasing(rows) && i < |rows| && i <= Bracket(rows, t)
    ensures Advance(rows, i, t) == Bracket(rows, t)
    decreases |rows| - i
  {
    var b := Bracket(rows, t);
    CountIsPrefix(rows, t);
    BracketBounds(rows, t);
    if rows[i].ts < t && i + 1 < |rows| && rows[i + 1].ts <= t {
      AdvanceFindsBracket(rows, i + 1, t);
    }
  }

  /** The resampled reports of well-formed input, tick by tick: each tick is
      interpolated on its bracket and its successor, and dropped when the
      bracket has no successor. */
  function Reference(rows: seq<Row>, ticks: seq<int>): seq<Row>
    requires StrictlyIncreasing(rows) && |rows| > 0
  {
    if |ticks| == 0 then []
    else
      var j := Bracket(rows, ticks[0]);
      BracketBounds(rows, ticks[0]);
      (if j + 1 < |rows| then [Interpolate(ticks[0], rows[j], rows[j + 1])] else [])
        + Reference(rows, ticks[1..])
  }

  /** On well-formed input the sweep computes the reference. */
  lemma {:induction false} SweepMatchesReference(rows: seq<Row>, ticks: seq<int>, i: nat)
    requires StrictlyIncreasing(rows) && Ascending(ticks) && i < |rows|
    requires |ticks| > 0 ==> i <= Bracket(rows, ticks[0])
    ensures Sweep(rows, ticks, i) == Success(Reference(rows, ticks))
    decreases |ticks|
  {
    if |ticks| > 0 {
      AdvanceFindsBracket(rows, i, ticks[0]);
      var j := Bracket(rows, ticks[0]);
      BracketBounds(rows, ticks[0]);
      if |ticks| > 1 {
        BracketMonotone(rows, ticks[0], ticks[1]);
      }
      SweepMatchesReference(rows, ticks[1..], j);
      var head := if j + 1 < |rows| then [Interpolate(ticks[0], rows[j], rows[j + 1])] else [];
      assert Reference(rows, ticks) == head + Reference(rows, ticks[1..]);
      assert j + 1 >= |rows| ==> head + Reference(rows, ticks[1..]) == Reference(rows, ticks[1..]);
    }
  }

  /** `resample` on well-formed input succeeds with the reference reports. */
  lemma ResampleMatchesReference(rows: seq<Row>, ticks: seq<int>)
    requires StrictlyIncreasing(rows) && |rows| > 0 && Ascending(ticks)
    ensures Resample(rows, Some(ticks)) == Success(Reference(rows, ticks))
  {
    SweepMatchesReference(rows, ticks, 0);
  }

  /** `r` is the interpolation, at its own instant, of a consecutive pair of
      samples that bounds that instant. */
  predicate Bracketed(rows: seq<Row>, r: Row)
  {
    exists j :: 0 <= j && j + 1 < |rows| && rows[j].ts <= r.ts < rows[j + 1].ts
                && r == Interpolate(r.ts, rows[j], rows[j + 1])
  }

  /** With ticks inside the flight's span, every resampled report is bounded
      by a consecutive pair of samples: its fraction lies in [0, 1). */
  lemma {:induction false} ReferenceBracketed(rows: seq<Row>, ticks: seq<int>)
    requires StrictlyIncreasing(rows) && |rows| > 0
    requires forall k :: 0 <= k < |ticks| ==> rows[0].ts <= ticks[k]
    ensures forall r :: r in Reference(rows, ticks) ==> Bracketed(rows, r)
  {
    if |ticks| > 0 {
      ReferenceBracketed(rows, ticks[1..]);
      var t, j := ticks[0], Bracket(rows, ticks[0]);
      BracketBounds(rows, t);
      if j + 1 < |rows| {
        assert Bracketed(rows, Interpolate(t, rows[j], rows[j + 1]));
      }
    }
  }

  /** The instants of a sequence of reports. */
  function Instants(rows: seq<Row>): (r: seq<int>)
    ensures |r| == |rows|
    ensures forall k :: 0 <= k < |rows| ==> r[k] == rows[k].ts
  {
    if |rows| == 0 then [] else [rows[0].ts] + Instants(rows[1..])
  }

  /** The ticks strictly before `stop`, in order. */
  function TicksBefore(ticks: seq<int>, stop: int): (r: seq<int>)
    ensures |r| <= |ticks|
  {
    if |ticks| == 0 then []
    else (if ticks[0] < stop then [ticks[0]] else []) + TicksBefore(ticks[1..], stop)
  }

  /** A flight with at least two samples is resampled at exactly the ticks
      before its last sample, in tick order: a tick at or after the last
      sample has no following sample and is dropped. */
  lemma {:induction false} ReferenceInstants(rows: seq<Row>, ticks: seq<int>)
    requires StrictlyIncreasing(rows) && |rows| >= 2
    ensures Instants(Reference(rows, ticks)) == TicksBefore(ticks, rows[|rows| - 1].ts)
  {
    if |ticks| > 0 {
      ReferenceInstants(rows, ticks[1..]);
      BracketBounds(rows, ticks[0]);
      var j := Bracket(rows, ticks[0]);
      var head := if j + 1 < |rows| then [Interpolate(ticks[0], rows[j], rows[j + 1])] else [];
      InstantsAppend(head, Reference(rows, ticks[1..]));
    }
  }

  lemma InstantsAppend(a: seq<Row>, b: seq<Row>)
    ensures Instants(a + b) == Instants(a) + Instants(b)
  {
    assert forall k :: 0 <= k < |a + b| ==> Instants(a + b)[k] == (Instants(a) + Instants(b))[k];
  }

  /** A tick at a sample that has a successor yields one report carrying that
      sample's instant, latitude and altitude; a tick at the last sample
      yields nothing. */
  lemma ResampleAtSample(rows: seq<Row>, j: nat)
    requires StrictlyIncreasing(rows) && j < |rows|
    ensures var r := Resample(rows, Some([rows[j].ts]));
            && r.Success?
            && (j + 1 == |rows| ==> r.value == [])
            && (j + 1 < |rows| ==>
                  && |r.value| == 1
                  && r.value[0].ts == rows[j].ts
                  && r.value[0].latitude == rows[j].latitude
                  && r.value[0].altitude == rows[j].altitude)
  {
    var t := rows[j].ts;
    ResampleMatchesReference(rows, [t]);
    BracketOfSample(rows, j);
    assert [t][1..] == [];
    if j + 1 < |rows| {
      InterpolateAtEarlierSample(rows[j], rows[j + 1]);
    }
  }
}

=== FILE: segmentation.dfy ===
/** Gap-based segmentation of a flight: `split` (src/flight.ts). */
module Segmentation {
  import opened Wrappers
  import opened Records
  import opened Filters

  /** The time difference in seconds between position k of a time-ordered
      sequence and its predecessor; the first position has gap 0. */
  function Gap(s: seq<Row>, k: nat): real
    requires k < |s|
  {
    if k == 0 then 0.0 else (s[k].ts - s[k - 1].ts) as real / 1000.0
  }

  /** Gaps of a time-ordered sequence are never negative. */
  lemma GapNonNegative(s: seq<Row>, k: nat)
    requires SortedByTime(s) && k < |s|
    ensures Gap(s, k) >= 0.0
  {
  }

  /** Position k of `s` carries the widest gap among the first n positions,
      and no earlier position carries a gap that wide. */
  predicate IsFirstWidest(s: seq<Row>, n: nat, k: nat)
    requires n <= |s|
  {
    && k < n
    && (forall j :: 0 <= j < n ==> Gap(s, j) <= Gap(s, k))
    && (forall j :: 0 <= j < k ==> Gap(s, j) < Gap(s, k))
  }

  /** The first position carrying the widest gap among the first n. */
  function FirstWidestGap(s: seq<Row>, n: nat): (k: nat)
    requires 0 < n <= |s|
    ensures IsFirstWidest(s, n, k)
  {
    if n == 1 then 0
    else
      var k := FirstWidestGap(s, n - 1);
      if Gap(s, n - 1) > Gap(s, k) then n - 1 else k
  }

  /** No gap of the time-ordered flight is wider than `threshold`, except
      gaps of zero (which never cause a cut). */
  predicate NoWideGap(rows: seq<Row>, threshold: real)
  {
    var s := SortByTime(rows);
    forall k :: 0 <= k < |s| ==> Gap(s, k) <= threshold || Gap(s, k) == 0.0
  }

  /** Every consecutive gap of the time-ordered flight is at most `threshold`. */
  predicate WithinThreshold(rows: seq<Row>, threshold: real)
  {
    var s := SortByTime(rows);
    forall k :: 0 < k < |s| ==> Gap(s, k) <= threshold
  }

  /** The widest gap decides whether some gap is both positive and wider than
      the threshold. */
  lemma WidestDecides(s: seq<Row>, k: nat, threshold: real)
    requires SortedByTime(s) && |s| > 0 && IsFirstWidest(s, |s|, k)
    ensures (Gap(s, k) > 0.0 && Gap(s, k) > threshold) <==>
            !(forall j :: 0 <= j < |s| ==> Gap(s, j) <= threshold || Gap(s, j) == 0.0)
  {
    if !(Gap(s, k) > 0.0 && Gap(s, k) > threshold) {
      forall j | 0 <= j < |s|
        ensures Gap(s, j) <= threshold || Gap(s, j) == 0.0
      {
        GapNonNegative(s, j);
      }
    }
  }

  /** `t` ends the first widest gap of the time-ordered flight, and that gap is
      positive and wider than `threshold`. */
  predicate CutsAt(rows: seq<Row>, threshold: real, t: int)
  {
    var s := SortByTime(rows);
    exists k :: 0 < k < |s| && IsFirstWidest(s, |s|, k) && s[k].ts == t
                && Gap(s, k) > threshold && Gap(s, k) > 0.0
  }

  /** Where `split` cuts the flight, if it does: the instant ending the first
      widest gap, provided that gap is positive and wider than `threshold`. */
  function Cut(rows: seq<Row>, threshold: real): (c: Option<int>)
    ensures c.None? <==> NoWideGap(rows, threshold)
    ensures c.Some? ==> CutsAt(rows, threshold, c.value)
  {
    if |rows| == 0 then None
    else
      var s := SortByTime(rows);
      var k := FirstWidestGap(s, |s|);
      WidestDecides(s, k, threshold);
      if Gap(s, k) > 0.0 && Gap(s, k) > threshold then
        assert CutsAt(rows, threshold, s[k].ts) by {
          assert 0 < k < |s| && IsFirstWidest(s, |s|, k);
        }
        Some(s[k].ts)
      else None
  }

  /** A cut lies strictly inside the flight: some report is at the cut, some
      report is earlier, and every earlier report is more than `threshold`
      seconds before it. */
  lemma CutIsInterior(rows: seq<Row>, threshold: real, t: int)
    requires CutsAt(rows, threshold, t)
    ensures exists x :: x in rows && x.ts == t
    ensures exists y :: y in rows && y.ts < t
    ensures forall y :: y in rows && y.ts < t ==> (t - y.ts) as real / 1000.0 > threshold
  {
    var s := SortByTime(rows);
    var k :| 0 < k < |s| && IsFirstWidest(s, |s|, k) && s[k].ts == t
             && Gap(s, k) > threshold && Gap(s, k) > 0.0;
    assert s[k] in multiset(s) && s[k - 1] in multiset(s);
    assert s[k] in rows && s[k - 1] in rows;
    forall y | y in rows && y.ts < t
      ensures (t - y.ts) as real / 1000.0 > threshold
    {
      assert y in multiset(s);
      EarlierRowsFarBefore(s, k, threshold, y);
    }
  }

  /** In a time-ordered flight, every report earlier than the end of a gap
      wider than `threshold` lies more than `threshold` seconds before it. */
  lemma EarlierRowsFarBefore(s: seq<Row>, k: nat, threshold: real, y: Row)
    requires SortedByTime(s) && 0 < k < |s| && Gap(s, k) > threshold
    requires y in s && y.ts < s[k].ts
    ensures (s[k].ts - y.ts) as real / 1000.0 > threshold
  {
    var j :| 0 <= j < |s| && s[j] == y;
    assert j < k;
    assert y.ts <= s[k - 1].ts;
    assert (s[k].ts - y.ts) as real >= (s[k].ts - s[k - 1].ts) as real;
  }

  /** The segments `split(threshold)` yields, left recursion first. */
  function Split(rows: seq<Row>, threshold: real): (segments: seq<seq<Row>>)
    ensures |segments| >= 1
    ensures multiset(Concat(segments)) == multiset(rows)
    ensures |rows| > 0 ==> forall seg :: seg in segments ==> |seg| > 0
    decreases |rows|
  {
    match Cut(rows, threshold)
    case None => [rows]
    case Some(t0) =>
      CutIsInterior(rows, threshold, t0);
      var left := Before(rows, t0, true);
      var right := After(rows, t0, false);
      ShrinksOnBothSides(rows, t0);
      var segments := Split(left, threshold) + Split(right, threshold);
      ConcatAppend(Split(left, threshold), Split(right, threshold));
      segments
  }

  /** Cutting at an interior instant leaves two non-empty, strictly smaller
      halves that together hold every report exactly once. */
  lemma ShrinksOnBothSides(rows: seq<Row>, t0: int)
    requires exists x :: x in rows && x.ts == t0
    requires exists y :: y in rows && y.ts < t0
    ensures 0 < |Before(rows, t0, true)| < |rows|
    ensures 0 < |After(rows, t0, false)| < |rows|
    ensures multiset(Before(rows, t0, true)) + multiset(After(rows, t0, false)) == multiset(rows)
  {
    var x :| x in rows && x.ts == t0;
    var y :| y in rows && y.ts < t0;
    FilterDrops(rows, (r: Row) => Precedes(r.ts, t0, true), x);
    FilterDrops(rows, (r: Row) => Follows(r.ts, t0, false), y);
    assert y in Before(rows, t0, true);
    assert x in After(rows, t0, false);
    BeforeAfterPartition(rows, t0, true);
  }

  /** Every report of a segment is a report of the flight. */
  lemma SegmentRowFromInput(rows: seq<Row>, threshold: real, i: nat, x: Row)
    requires i < |Split(rows, threshold)| && x in Split(rows, threshold)[i]
    ensures x in rows
  {
    InConcat(Split(rows, threshold), i, x);
    assert x in multiset(Concat(Split(rows, threshold)));
  }

  /** The yielded segments are final: none of them has a gap that `split`
      would cut at, so splitting a segment again yields it unchanged. */
  lemma {:induction false} SplitSegmentsAreFinal(rows: seq<Row>, threshold: real)
    ensures forall seg :: seg in Split(rows, threshold) ==> NoWideGap(seg, threshold)
    decreases |rows|
  {
    match Cut(rows, threshold)
    case None =>
    case Some(t0) =>
      CutIsInterior(rows, threshold, t0);
      ShrinksOnBothSides(rows, t0);
      SplitSegmentsAreFinal(Before(rows, t0, true), threshold);
      SplitSegmentsAreFinal(After(rows, t0, false), threshold);
  }

  /** With a non-negative threshold, no two time-adjacent reports of a
      segment are more than `threshold` seconds apart. */
  lemma SplitGapBound(rows: seq<Row>, threshold: real)
    requires threshold >= 0.0
    ensures forall seg :: seg in Split(rows, threshold) ==> WithinThreshold(seg, threshold)
  {
    SplitSegmentsAreFinal(rows, threshold);
  }

  /** A flight is yielded whole exactly when it has no gap to cut at; in
      particular an empty or single-report flight yields itself once. */
  lemma SplitKeepsWhole(rows: seq<Row>, threshold: real)
    ensures Split(rows, threshold) == [rows] <==> NoWideGap(rows, threshold)
    ensures |rows| <= 1 ==> Split(rows, threshold) == [rows]
  {
    match Cut(rows, threshold)
    case None =>
    case Some(t0) =>
      CutIsInterior(rows, threshold, t0);
      ShrinksOnBothSides(rows, t0);
      assert |Split(rows, threshold)| >= 2;
  }

  /** Reports of different segments are in increasing time order across the
      segments and more than `threshold` seconds apart. */
  predicate Separated(segments: seq<seq<Row>>, threshold: real)
  {
    forall i, j, x, y :: 0 <= i < j < |segments| && x in segments[i] && y in segments[j] ==>
      x.ts < y.ts && (y.ts - x.ts) as real / 1000.0 > threshold
  }

  lemma SeparatedAppend(l: seq<seq<Row>>, r: seq<seq<Row>>, threshold: real)
    requires Separated(l, threshold) && Separated(r, threshold)
    requires forall x, y :: x in Concat(l) && y in Concat(r) ==>
               x.ts < y.ts && (y.ts - x.ts) as real / 1000.0 > threshold
    ensures Separated(l + r, threshold)
  {
    var segments := l + r;
    forall i: nat, j: nat, x: Row, y: Row | 0 <= i < j < |segments| && x in segments[i] && y in segments[j]
      ensures x.ts < y.ts && (y.ts - x.ts) as real / 1000.0 > threshold
    {
      if j < |l| {
        assert segments[i] == l[i] && segments[j] == l[j];
      } else if i >= |l| {
        assert segments[i] == r[i - |l|] && segments[j] == r[j - |l|];
      } else {
        assert segments[i] == l[i] && segments[j] == r[j - |l|];
        InConcat(l, i, x);
        InConcat(r, j - |l|, y);
      }
    }
  }

  /** Every report of every segment is a report of the flight. */
  lemma SplitRowsFromInput(rows: seq<Row>, threshold: real)
    ensures forall seg, x :: seg in Split(rows, threshold) && x in seg ==> x in rows
  {
    forall seg, x | seg in Split(rows, threshold) && x in seg
      ensures x in rows
    {
      var i :| 0 <= i < |Split(rows, threshold)| && Split(rows, threshold)[i] == seg;
      SegmentRowFromInput(rows, threshold, i, x);
    }
  }

  /** Every report of the segments is a report of the flight. */
  lemma SplitRowFromInput(rows: seq<Row>, threshold: real, x: Row)
    requires x in Concat(Split(rows, threshold))
    ensures x in rows
  {
    assert x in multiset(Concat(Split(rows, threshold)));
  }

  /** Segments come out in increasing time, and reports of different segments
      are more than `threshold` seconds apart. */
  lemma {:induction false} SplitSeparated(rows: seq<Row>, threshold: real)
    ensures Separated(Split(rows, threshold), threshold)
    decreases |rows|
  {
    var c := Cut(rows, threshold);
    if c.Some? {
      var t0 := c.value;
      CutIsInterior(rows, threshold, t0);
      ShrinksOnBothSides(rows, t0);
      var left, right := Before(rows, t0, true), After(rows, t0, false);
      SplitSeparated(left, threshold);
      SplitSeparated(right, threshold);
      var l, r := Split(left, threshold), Split(right, threshold);
      assert Split(rows, threshold) == l + r;
      forall x: Row, y: Row | x in Concat(l) && y in Concat(r)
        ensures x.ts < y.ts && (y.ts - x.ts) as real / 1000.0 > threshold
      {
        SplitRowFromInput(left, threshold, x);
        SplitRowFromInput(right, threshold, y);
        assert x in rows && x.ts < t0 && t0 <= y.ts;
      }
      SeparatedAppend(l, r, threshold);
    }
  }

  /** The gaps `split` inspects do not depend on how the sort orders reports
      that share a timestamp: any time-ordered arrangement shows the same. */
  lemma GapsIndependentOfSort(rows: seq<Row>, s: seq<Row>)
    requires SortedByTime(s) && multiset(s) == multiset(rows)
    ensures |s| == |SortByTime(rows)|
    ensures forall k :: 0 <= k < |s| ==> Gap(s, k) == Gap(SortByTime(rows), k)
  {
    SortedPermutationsAgreeOnTime(s, SortByTime(rows));
  }

  /** Whether `ts` lies in the half-open window [lo, hi); a missing bound
      leaves that side open. */
  predicate InWindow(lo: Option<int>, hi: Option<int>, ts: int)
  {
    (lo.None? || lo.value <= ts) && (hi.None? || ts < hi.value)
  }

  /** The reports of the flight inside a time window, in flight order. */
  function Window(rows: seq<Row>, lo: Option<int>, hi: Option<int>): seq<Row>
  {
    Filter(rows, (x: Row) => InWindow(lo, hi, x.ts))
  }

  /** The narrower of an upper bound and `t`. */
  function Below(hi: Option<int>, t: int): Option<int>
  {
    if hi.Some? && hi.value <= t then hi else Some(t)
  }

  /** The narrower of a lower bound and `t`. */
  function Above(lo: Option<int>, t: int): Option<int>
  {
    if lo.Some? && lo.value >= t then lo else Some(t)
  }

  lemma WindowOfBefore(rows: seq<Row>, t: int, lo: Option<int>, hi: Option<int>)
    ensures Window(Before(rows, t, true), lo, hi) == Window(rows, lo, Below(hi, t))
  {
    var p := (x: Row) => Precedes(x.ts, t, true);
    var w := (x: Row) => InWindow(lo, hi, x.ts);
    var both := (x: Row) => InWindow(lo, Below(hi, t), x.ts);
    FilterExtensional(rows, (x: Row) => Precedes(x.ts, t, true), p);
    FilterExtensional(Before(rows, t, true), (x: Row) => InWindow(lo, hi, x.ts), w);
    FilterFilter(rows, p, w, both);
    FilterExtensional(rows, both, (x: Row) => InWindow(lo, Below(hi, t), x.ts));
  }

  lemma WindowOfAfter(rows: seq<Row>, t: int, lo: Option<int>, hi: Option<int>)
    ensures Window(After(rows, t, false), lo, hi) == Window(rows, Above(lo, t), hi)
  {
    var p := (x: Row) => Follows(x.ts, t, false);
    var w := (x: Row) => InWindow(lo, hi, x.ts);
    var both := (x: Row) => InWindow(Above(lo, t), hi, x.ts);
    FilterExtensional(rows, (x: Row) => Follows(x.ts, t, false), p);
    FilterExtensional(After(rows, t, false), (x: Row) => InWindow(lo, hi, x.ts), w);
    FilterFilter(rows, p, w, both);
    FilterExtensional(rows, both, (x: Row) => InWindow(Above(lo, t), hi, x.ts));
  }

  /** Every segment is the flight's reports inside some time window,
      unmodified and in flight order. */
  lemma {:induction false} SplitSegmentsAreWindows(rows: seq<Row>, threshold: real)
    ensures forall seg :: seg in Split(rows, threshold) ==>
              exists lo, hi :: seg == Window(rows, lo, hi)
    decreases |rows|
  {
    match Cut(rows, threshold)
    case None =>
      FilterKeepsAll(rows, (x: Row) => InWindow(None, None, x.ts));
      assert rows == Window(rows, None, None);
    case Some(t0) =>
      CutIsInterior(rows, threshold, t0);
      ShrinksOnBothSides(rows, t0);
      var left, right := Before(rows, t0, true), After(rows, t0, false);
      SplitSegmentsAreWindows(left, threshold);
      SplitSegmentsAreWindows(right, threshold);
      forall seg | seg in Split(rows, threshold)
        ensures exists lo, hi :: seg == Window(rows, lo, hi)
      {
        if seg in Split(left, threshold) {
          var lo, hi :| seg == Window(left, lo, hi);
          WindowOfBefore(rows, t0, lo, hi);
          assert seg == Window(rows, lo, Below(hi, t0));
        } else {
          assert seg in Split(right, threshold);
          var lo, hi :| seg == Window(right, lo, hi);
          WindowOfAfter(rows, t0, lo, hi);
          assert seg == Window(rows, Above(lo, t0), hi);
        }
      }
  }
}

=== FILE: time.dfy ===
/** Normalisation of instants (src/time.ts). */
module Time {
  import opened Wrappers

  /** What callers may pass where an instant is expected: an instant already
      (a Date, as milliseconds since the epoch) or its text. */
  datatype Timelike = Instant(ms: int) | Text(s: string)

  /** The one textual pattern accepted, read in UTC. */
  const UtcPattern: string := "%Y-%m-%d %H:%M:%S"

  /** The instant denoted by `x`. `parse(pattern, text)` stands for the date
      library's UTC parser (None when the text does not match the pattern);
      `now` is the wall-clock instant used when parsing fails. */
  function MakeDate(x: Timelike, parse: (string, string) -> Option<int>, now: int): int
  {
    match x
    case Instant(ms) => ms
    case Text(s) =>
      match parse(UtcPattern, s)
      case Some(ms) => ms
      case None => now
  }

  /** Whatever the parser and the clock: a date is returned unchanged, and
      text the UTC pattern accepts yields the parsed instant. */
  lemma MakeDateFollowsParser(x: Timelike, parse: (string, string) -> Option<int>, now: int)
    ensures x.Instant? ==> MakeDate(x, parse, now) == x.ms
    ensures x.Text? && parse(UtcPattern, x.s).Some? ==> MakeDate(x, parse, now) == parse(UtcPattern, x.s).value
  {
  }

  /** The result is always an instant, so normalising it again changes nothing,
      whatever clock the second call sees. */
  lemma MakeDateIdempotent(x: Timelike, parse: (string, string) -> Option<int>, now: int, later: int)
    ensures MakeDate(Instant(MakeDate(x, parse, now)), parse, later) == MakeDate(x, parse, now)
  {
  }

  /** The clock matters only for text that the UTC pattern rejects. */
  lemma MakeDateUsesClockOnlyOnFailure(x: Timelike, parse: (string, string) -> Option<int>, now: int, other: int)
    ensures MakeDate(x, parse, now) != MakeDate(x, parse, other) ==>
              x.Text? && parse(UtcPattern, x.s).None?
    ensures x.Text? && parse(UtcPattern, x.s).None? ==> MakeDate(x, parse, now) == now
  {
  }
}

=== FILE: traffic.dfy ===
/** Iteration over the flights of a traffic (src/traffic.ts): reports are
    grouped by aircraft and every group is segmented by `split`. */
module Traffic {
  import opened Records
  import opened Segmentation

  /** The gap threshold, in seconds, of plain iteration over a traffic. */
  const DefaultThreshold: real := 600.0

  predicate Distinct(ids: seq<string>)
  {
    forall i, j :: 0 <= i < j < |ids| ==> ids[i] != ids[j]
  }

  /** The aircraft identifiers present in the traffic, each once, in order of
      first appearance. */
  function Aircraft(rows: seq<Row>): (ids: seq<string>)
    ensures Distinct(ids)
    ensures forall id :: id in ids <==> exists x :: x in rows && x.icao24 == id
  {
    if |rows| == 0 then []
    else
      var init, last := rows[..|rows| - 1], rows[|rows| - 1];
      assert rows == init + [last];
      var earlier := Aircraft(init);
      if last.icao24 in earlier then earlier else earlier + [last.icao24]
  }

  /** Whether a report belongs to aircraft `id`. */
  predicate OfAircraft(id: string, x: Row)
  {
    x.icao24 == id
  }

  /** The reports of one aircraft, in traffic order. */
  function Group(rows: seq<Row>, id: string): (g: seq<Row>)
    ensures forall x :: x in g <==> x in rows && x.icao24 == id
    ensures forall x {:trigger multiset(g)[x]} :: multiset(g)[x] == if x.icao24 == id then multiset(rows)[x] else 0
  {
    Filter(rows, x => OfAircraft(id, x))
  }

  /** The segments of the groups of `ids`, group after group: at least one
      per group, each holding only reports of the listed aircraft. */
  function Blocks(rows: seq<Row>, ids: seq<string>, threshold: real): (segments: seq<seq<Row>>)
    ensures |segments| >= |ids|
    ensures forall seg, x :: seg in segments && x in seg ==> x in rows && x.icao24 in ids
  {
    if |ids| == 0 then []
    else
      SplitRowsFromInput(Group(rows, ids[0]), threshold);
      assert ids[0] in ids;
      assert forall z :: z in ids[1..] ==> z in ids;
      Split(Group(rows, ids[0]), threshold) + Blocks(rows, ids[1..], threshold)
  }

  /** `iterate(threshold)`: every segment of every aircraft's flight. Every
      report is yielded exactly once; segments are non-empty, belong to one
      aircraft and come grouped by aircraft; each aircraft yields at least
      one; with a non-negative threshold no segment has a wider gap. */
  function Iterate(rows: seq<Row>, threshold: real): (segments: seq<seq<Row>>)
    ensures multiset(Concat(segments)) == multiset(rows)
    ensures SingleAircraft(segments)
    ensures forall seg :: seg in segments ==> |seg| > 0
    ensures Contiguous(segments)
    ensures |segments| >= |Aircraft(rows)|
    ensures threshold >= 0.0 ==> forall seg :: seg in segments ==> WithinThreshold(seg, threshold)
    ensures SeparatedPerAircraft(segments, threshold)
  {
    var ids := Aircraft(rows);
    BlocksSeparated(rows, ids, threshold);
    AllAircraftCovered(rows, threshold);
    BlocksSingleAircraft(rows, ids, threshold);
    BlocksContiguous(rows, ids, threshold);
    BlocksNonEmpty(rows, ids, threshold);
    BlocksGapBound(rows, ids, threshold);
    Blocks(rows, ids, threshold)
  }

  /** All reports of each segment belong to one aircraft. */
  predicate SingleAircraft(segments: seq<seq<Row>>)
  {
    forall i, x, y :: 0 <= i < |segments| && x in segments[i] && y in segments[i] ==>
      x.icao24 == y.icao24
  }

  lemma {:induction false} BlocksSingleAircraft(rows: seq<Row>, ids: seq<string>, threshold: real)
    ensures SingleAircraft(Blocks(rows, ids, threshold))
  {
    if |ids| > 0 {
      var segments := Blocks(rows, ids, threshold);
      var first: seq<seq<Row>> := Split(Group(rows, ids[0]), threshold);
      var rest: seq<seq<Row>> := Blocks(rows, ids[1..], threshold);
      BlocksSingleAircraft(rows, ids[1..], threshold);
      forall i: nat, x: Row, y: Row | i < |segments| && x in segments[i] && y in segments[i]
        ensures x.icao24 == y.icao24
      {
        if i < |first| {
          assert segments[i] == first[i];
          SegmentRowFromInput(Group(rows, ids[0]), threshold, i, x);
          SegmentRowFromInput(Group(rows, ids[0]), threshold, i, y);
        } else {
          assert segments[i] == rest[i - |first|];
          assert x in rest[i - |first|] && y in rest[i - |first|];
        }
      }
    }
  }

  /** The segments of the groups of distinct `ids` hold, once each, exactly
      the reports of those aircraft. */
  lemma {:induction false} BlocksCover(rows: seq<Row>, ids: seq<string>, threshold: real)
    requires Distinct(ids)
    ensures forall x :: multiset(Concat(Blocks(rows, ids, threshold)))[x] ==
                         if x.icao24 in ids then multiset(rows)[x] else 0
  {
    if |ids| > 0 {
      var first: seq<seq<Row>> := Split(Group(rows, ids[0]), threshold);
      var rest: seq<seq<Row>> := Blocks(rows, ids[1..], threshold);
      assert Distinct(ids[1..]);
      BlocksCover(rows, ids[1..], threshold);
      ConcatAppend(first, rest);
      assert Concat(Blocks(rows, ids, threshold)) == Concat(first) + Concat(rest);
      forall x
        ensures multiset(Concat(Blocks(rows, ids, threshold)))[x] ==
                  if x.icao24 in ids then multiset(rows)[x] else 0
      {
        assert x.icao24 in ids <==> x.icao24 == ids[0] || x.icao24 in ids[1..];
        assert x.icao24 == ids[0] ==> x.icao24 !in ids[1..];
      }
    }
  }

  /** The segments of all aircraft of the traffic lose and duplicate no
      report. */
  lemma AllAircraftCovered(rows: seq<Row>, threshold: real)
    ensures multiset(Concat(Blocks(rows, Aircraft(rows), threshold))) == multiset(rows)
  {
    var ids := Aircraft(rows);
    var all := Concat(Blocks(rows, ids, threshold));
    BlocksCover(rows, ids, threshold);
    forall x
      ensures multiset(all)[x] == multiset(rows)[x]
    {
      if x in rows {
        assert x.icao24 in ids;
      } else {
        assert multiset(rows)[x] == 0;
      }
    }
    assert multiset(all) == multiset(rows);
  }

  /** Segments of one aircraft are yielded together: no segment of another
      aircraft comes between two of its segments. */
  predicate Contiguous(segments: seq<seq<Row>>)
  {
    forall i, j, k :: 0 <= i < j < k < |segments| && |segments[i]| > 0 && |segments[j]| > 0
                      && |segments[k]| > 0 && segments[i][0].icao24 == segments[k][0].icao24 ==>
                        segments[j][0].icao24 == segments[i][0].icao24
  }

  lemma ContiguousAppend(a: seq<seq<Row>>, b: seq<seq<Row>>, id: string)
    requires forall i :: 0 <= i < |a| && |a[i]| > 0 ==> a[i][0].icao24 == id
    requires forall i :: 0 <= i < |b| && |b[i]| > 0 ==> b[i][0].icao24 != id
    requires Contiguous(b)
    ensures Contiguous(a + b)
  {
    var s: seq<seq<Row>> := a + b;
    forall i: nat, j: nat, k: nat | i < j < k < |s| && |s[i]| > 0 && |s[j]| > 0 && |s[k]| > 0
                                    && s[i][0].icao24 == s[k][0].icao24
      ensures s[j][0].icao24 == s[i][0].icao24
    {
      if k < |a| {
        assert s[i] == a[i] && s[j] == a[j] && s[k] == a[k];
      } else if i >= |a| {
        assert s[i] == b[i - |a|] && s[j] == b[j - |a|] && s[k] == b[k - |a|];
      }
    }
  }

  lemma {:induction false} BlocksContiguous(rows: seq<Row>, ids: seq<string>, threshold: real)
    requires Distinct(ids)
    ensures Contiguous(Blocks(rows, ids, threshold))
  {
    if |ids| > 0 {
      var first: seq<seq<Row>> := Split(Group(rows, ids[0]), threshold);
      var rest: seq<seq<Row>> := Blocks(rows, ids[1..], threshold);
      assert Distinct(ids[1..]);
      BlocksContiguous(rows, ids[1..], threshold);
      forall i: nat | i < |first| && |first[i]| > 0
        ensures first[i][0].icao24 == ids[0]
      {
        SegmentRowFromInput(Group(rows, ids[0]), threshold, i, first[i][0]);
      }
      forall i: nat | i < |rest| && |rest[i]| > 0
        ensures rest[i][0].icao24 != ids[0]
      {
        assert rest[i] in rest && rest[i][0] in rest[i];
      }
      ContiguousAppend(first, rest, ids[0]);
    }
  }

  /** For aircraft present in the traffic every segment is non-empty. */
  lemma {:induction false} BlocksNonEmpty(rows: seq<Row>, ids: seq<string>, threshold: real)
    requires forall id :: id in ids ==> exists x :: x in rows && x.icao24 == id
    ensures forall seg :: seg in Blocks(rows, ids, threshold) ==> |seg| > 0
  {
    if |ids| > 0 {
      assert forall id :: id in ids[1..] ==> id in ids;
      BlocksNonEmpty(rows, ids[1..], threshold);
      assert ids[0] in ids;
      var x :| x in rows && x.icao24 == ids[0];
      assert x in Group(rows, ids[0]);
    }
  }

  /** With a non-negative threshold, no two time-adjacent reports of any
      segment are more than `threshold` seconds apart. */
  lemma {:induction false} BlocksGapBound(rows: seq<Row>, ids: seq<string>, threshold: real)
    ensures threshold >= 0.0 ==> forall seg :: seg in Blocks(rows, ids, threshold) ==> WithinThreshold(seg, threshold)
  {
    if |ids| > 0 && threshold >= 0.0 {
      SplitGapBound(Group(rows, ids[0]), threshold);
      BlocksGapBound(rows, ids[1..], threshold);
    }
  }

  /** Reports of one aircraft in different segments are time-ordered by
      segment and more than `threshold` seconds apart. */
  predicate SeparatedPerAircraft(segments: seq<seq<Row>>, threshold: real)
  {
    forall i, j, x, y :: 0 <= i < j < |segments| && x in segments[i] && y in segments[j] && x.icao24 == y.icao24 ==>
      x.ts < y.ts && (y.ts - x.ts) as real / 1000.0 > threshold
  }

  /** Segments of one aircraft followed by segments of others stay separated
      per aircraft. */
  lemma SeparatedPerAircraftAppend(a: seq<seq<Row>>, b: seq<seq<Row>>, threshold: real, id: string)
    requires forall seg, x :: seg in a && x in seg ==> x.icao24 == id
    requires forall seg, y :: seg in b && y in seg ==> y.icao24 != id
    requires Separated(a, threshold) && SeparatedPerAircraft(b, threshold)
    ensures SeparatedPerAircraft(a + b, threshold)
  {
    var s: seq<seq<Row>> := a + b;
    forall i: nat, j: nat, x: Row, y: Row | i < j < |s| && x in s[i] && y in s[j] && x.icao24 == y.icao24
      ensures x.ts < y.ts && (y.ts - x.ts) as real / 1000.0 > threshold
    {
      if j < |a| {
        assert s[i] == a[i] && s[j] == a[j];
      } else if i >= |a| {
        assert s[i] == b[i - |a|] && s[j] == b[j - |a|];
      } else {
        assert false;
      }
    }
  }

  /** Each aircraft's segments come in time order, more than the threshold
      apart, whatever the segments of other aircraft between them. */
  lemma {:induction false} BlocksSeparated(rows: seq<Row>, ids: seq<string>, threshold: real)
    requires Distinct(ids)
    ensures SeparatedPerAircraft(Blocks(rows, ids, threshold), threshold)
  {
    if |ids| > 0 {
      var g := Group(rows, ids[0]);
      var first: seq<seq<Row>> := Split(g, threshold);
      var rest: seq<seq<Row>> := Blocks(rows, ids[1..], threshold);
      assert Distinct(ids[1..]);
      BlocksSeparated(rows, ids[1..], threshold);
      SplitSeparated(g, threshold);
      SplitRowsFromInput(g, threshold);
      forall seg, y | seg in rest && y in seg
        ensures y.icao24 != ids[0]
      {
        assert y.icao24 in ids[1..];
      }
      SeparatedPerAircraftAppend(first, rest, threshold, ids[0]);
    }
  }

  /** Where part `k` starts once the parts are laid end to end. */
  function Start<T>(parts: seq<seq<T>>, k: nat): nat
    requires k <= |parts|
  {
    if k == 0 then 0 else |parts[0]| + Start(parts[1..], k - 1)
  }

  /** Each part appears, unchanged, as one run of the parts laid end to end. */
  lemma {:induction false} ConcatHoldsEachPart<T>(parts: seq<seq<T>>, k: nat)
    requires k < |parts|
    ensures Start(parts, k) + |parts[k]| <= |Concat(parts)|
    ensures Concat(parts)[Start(parts, k)..Start(parts, k) + |parts[k]|] == parts[k]
  {
    var head, tail := parts[0], parts[1..];
    if k == 0 {
      assert Concat(parts)[0..|head|] == (head + Concat(tail))[0..|head|] == head;
    } else {
      ConcatHoldsEachPart(tail, k - 1);
      assert tail[k - 1] == parts[k];
      var lo, n := Start(tail, k - 1), |parts[k]|;
      assert (head + Concat(tail))[|head| + lo..|head| + lo + n] == Concat(tail)[lo..lo + n];
    }
  }

  /** The `split` of each listed aircraft's reports, in list order. */
  function Runs(rows: seq<Row>, ids: seq<string>, threshold: real): (runs: seq<seq<seq<Row>>>)
    ensures |runs| == |ids|
  {
    if |ids| == 0 then [] else [Split(Group(rows, ids[0]), threshold)] + Runs(rows, ids[1..], threshold)
  }

  /** Run `k` is the split of aircraft `ids[k]`. */
  lemma {:induction false} RunsAt(rows: seq<Row>, ids: seq<string>, threshold: real, k: nat)
    requires k < |ids|
    ensures Runs(rows, ids, threshold)[k] == Split(Group(rows, ids[k]), threshold)
  {
    if k > 0 {
      RunsAt(rows, ids[1..], threshold, k - 1);
      assert ids[1..][k - 1] == ids[k];
    }
  }

  /** The blocks are the aircraft's splits one after another. */
  lemma {:induction false} BlocksConcatRuns(rows: seq<Row>, ids: seq<string>, threshold: real)
    ensures Blocks(rows, ids, threshold) == Concat(Runs(rows, ids, threshold))
  {
    if |ids| > 0 {
      BlocksConcatRuns(rows, ids[1..], threshold);
      BlocksUnfold(rows, ids, threshold);
      RunsUnfold(rows, ids, threshold);
    }
  }

  /** One step of `Blocks`. */
  lemma BlocksUnfold(rows: seq<Row>, ids: seq<string>, threshold: real)
    requires |ids| > 0
    ensures Blocks(rows, ids, threshold) == Split(Group(rows, ids[0]), threshold) + Blocks(rows, ids[1..], threshold)
  {
  }

  /** One step of `Runs`, laid end to end. */
  lemma RunsUnfold(rows: seq<Row>, ids: seq<string>, threshold: real)
    requires |ids| > 0
    ensures Concat(Runs(rows, ids, threshold)) ==
              Split(Group(rows, ids[0]), threshold) + Concat(Runs(rows, ids[1..], threshold))
  {
    var runs := Runs(rows, ids, threshold);
    assert runs[1..] == Runs(rows, ids[1..], threshold);
    assert runs[0] == Split(Group(rows, ids[0]), threshold);
  }

  /** `iterate` yields, aircraft by aircraft, exactly `split` of that
      aircraft's reports with the threshold passed unchanged. */
  lemma IterateConcatenatesSplits(rows: seq<Row>, threshold: real)
    ensures Iterate(rows, threshold) == Concat(Runs(rows, Aircraft(rows), threshold))
  {
    BlocksConcatRuns(rows, Aircraft(rows), threshold);
  }

  /** Every aircraft of the traffic contributes exactly its own `split`, as
      one run of consecutive segments. */
  lemma IterateHoldsSplitOfEachAircraft(rows: seq<Row>, threshold: real, k: nat)
    requires k < |Aircraft(rows)|
    ensures var runs := Runs(rows, Aircraft(rows), threshold);
            var s := Split(Group(rows, Aircraft(rows)[k]), threshold);
            Start(runs, k) + |s| <= |Iterate(rows, threshold)| &&
            forall m :: 0 <= m < |s| ==> Iterate(rows, threshold)[Start(runs, k) + m] == s[m]
  {
    var ids := Aircraft(rows);
    IterateConcatenatesSplits(rows, threshold);
    RunsAt(rows, ids, threshold, k);
    ConcatenatedHoldsEachPart(Iterate(rows, threshold), Runs(rows, ids, threshold), k);
  }

  /** `ConcatHoldsEachPart`, position by position. */
  lemma ConcatenatedHoldsEachPart<T>(whole: seq<T>, parts: seq<seq<T>>, k: nat)
    requires whole == Concat(parts) && k < |parts|
    ensures Start(parts, k) + |parts[k]| <= |whole|
    ensures forall m :: 0 <= m < |parts[k]| ==> whole[Start(parts, k) + m] == parts[k][m]
  {
    ConcatHoldsEachPart(parts, k);
    var lo := Start(parts, k);
    forall m | 0 <= m < |parts[k]|
      ensures whole[lo + m] == parts[k][m]
    {
      assert whole[lo..lo + |parts[k]|][m] == whole[lo + m];
    }
  }

  /** Iterating a traffic directly: `iterate` with the default threshold. */
  function Flights(rows: seq<Row>): (segments: seq<seq<Row>>)
    ensures multiset(Concat(segments)) == multiset(rows)
    ensures forall seg :: seg in segments ==> |seg| > 0 && WithinThreshold(seg, DefaultThreshold)
    ensures SingleAircraft(segments) && Contiguous(segments)
    ensures |segments| >= |Aircraft(rows)|
    ensures SeparatedPerAircraft(segments, DefaultThreshold)
  {
    Iterate(rows, DefaultThreshold)
  }
}

=== FILE: wrappers.dfy ===
/** Failure-carrying result types shared by the model. */
module Wrappers {

  /** A value that may be missing. */
  datatype Option<+T> = None | Some(value: T)

  /** Either a computed value or the error that stopped the computation. */
  datatype Result<+R, +E> = Success(value: R) | Failure(error: E)
}
